=== FILE: README.md ===
# DataGreg client data layer in Dafny

DataGreg keeps prompt/response pairs, grouped into named datasets, in one JSON document
(`DataGreg.json`) in a folder the user picks in the browser. This project models the client
data layer over that document:

- the document shape and the upgrade of legacy (v1) documents to the v2 multi-dataset shape;
- the dataset and pair operations (list, create, update and delete);
- JSONL export in the Gemini and OpenAI chat formats, and JSONL import back into a dataset;
- timestamped backups: naming, listing with timestamp repair and newest-first order, restore,
  and the automatic backup check;
- the in-memory session state (`db`, `directoryHandle`, `lastModified`, `hasChanges`) and saving;
- user preferences kept in local storage and merged over defaults.

Everything is a pure function on immutable values:

- A repository operation takes the document and returns `Result<Step<T>, Error>`. A `Step`
  holds the new document, the value returned, and whether the source saves afterwards.
  `Session.Perform` applies a step to the session state.
- The clock is a parameter (`Session.Clock`: one ISO string and one epoch-millisecond reading).
  So are the UUIDs (`crypto.randomUUID`), `JSON.parse`, and the files read from the folder.
- `JSON.stringify` is modelled concretely (`Json.Stringify`: compact output, the standard string
  escaping), so the shape of export lines is proved rather than assumed. `JSON.parse` is a
  parameter `string -> Option<Json>`. The round trips assume it reads back what
  `Json.Stringify` writes (`Json.ReadsBackStringify`).

Modules, one per file: `Wrappers` (Option, Result), `Text` (the JavaScript string built-ins the
source uses), `Json`, `Types` (the records of `src/lib/types.ts`), `Migration`, `Repository`,
`Jsonl` (record shape, import parsing, line splitting), `Exporters`, `Transfer`
(`importJSONL`, `exportData`), `Backups`, `Session` and `Preferences`.

## Model

| member | source | states |
|---|---|---|
| Migration.CreateEmptyDatabase | src/lib/clientDb.ts:160-168 | A new document is version 2, has an empty `datasets` list and no legacy `items`, and has both stamps at now; it satisfies the v2 invariant. |
| Migration.Migrate | src/lib/clientDb.ts:171-196 | A legacy document (no version, or version below 2) becomes version 2 with exactly one dataset "Default" holding the legacy items in order. The document's `createdAt` and the dataset's `createdAt` and `updatedAt` keep the stored stamp, or take now when it is empty; the document's `updatedAt` is now. A current document is returned unchanged, except that a missing `datasets` becomes empty. The result always satisfies the v2 invariant. |
| Migration.MigrateCurrentIsIdentity | src/lib/clientDb.ts:189-195 | A document that already satisfies the v2 invariant is returned exactly as it is. |
| Migration.MigrateIdempotent | src/lib/clientDb.ts:171-196 | Migrating twice gives the same document as migrating once, whatever the clock and UUID of the second run. |
| Migration.MigrateKeepsLegacyPairs | src/lib/clientDb.ts:173-187 | After upgrading a legacy document, the pairs across all datasets are exactly the legacy `items`, in order. No pair is lost or added. |
| Repository.ListDatasets | src/lib/clientDb.ts:381-384 | The datasets in stored order; none when the document has no `datasets`. |
| Repository.CreateDataset | src/lib/clientDb.ts:386-403 | Appends one empty dataset with the given name, the new id and both stamps at now, after all existing datasets. The header is unchanged and the document is saved. |
| Repository.UpdateDataset | src/lib/clientDb.ts:405-415 | Fails with "Dataset not found" exactly when no dataset has the id. Otherwise only the first dataset with the id changes: the patched fields take the new values, the others keep theirs, and `updatedAt` becomes now. |
| Repository.DeleteDataset | src/lib/clientDb.ts:417-428 | A document without `datasets` is left as it is, with no error and no save. Otherwise it fails exactly when the id is absent, and else removes exactly the first dataset with that id, keeping the others in order. |
| Repository.ListPairs | src/lib/clientDb.ts:431-440 | Without a dataset id (or with an empty one), all pairs of all datasets in order. With an id, the items of the first dataset with it, or none when there is no such dataset. |
| Repository.AllPairsMembers | src/lib/clientDb.ts:435 | A pair appears in the all-datasets listing exactly when some dataset holds it. |
| Repository.AddTarget | src/lib/clientDb.ts:446-449 | The target dataset is the first with the given id, or the first dataset when no id is given; there is none exactly when that lookup fails. |
| Repository.AddPair | src/lib/clientDb.ts:442-465 | Fails with "No dataset available" exactly when there is no target. Otherwise the new pair is appended to the target only, and the target's `updatedAt` becomes now. Every other dataset is unchanged and the document is saved. |
| Repository.CreateThenAddThenList | src/lib/clientDb.ts:386-465 | Creating a dataset under a fresh id, adding a pair to it by that id, and listing by that id yields exactly that one pair. |
| Repository.FirstHolding | src/lib/clientDb.ts:478-484 | The unscoped search stops at the first dataset that holds a pair with the id. |
| Repository.Locate | src/lib/clientDb.ts:473-489 | A scoped search finds the pair only inside the first dataset with the given id. An unscoped search finds the first holding dataset and the first matching pair in it. There is no place exactly when the source throws "Pair not found". |
| Repository.UpdatePair | src/lib/clientDb.ts:467-495 | Fails with "Pair not found" exactly when the pair cannot be located. Otherwise only the located pair changes: the patch applies, its `updatedAt` and its dataset's `updatedAt` become now, and nothing else changes. |
| Repository.DeletePair | src/lib/clientDb.ts:497-524 | Fails with "Pair not found" exactly when the pair cannot be located. Otherwise it removes exactly the located pair and stamps its dataset; all other datasets are unchanged. |
| Jsonl.Line | src/lib/exporters.ts:4-12 | Every exported record is one line: it starts with `{`, ends with `}` and holds no line break. |
| Json.Stringify | src/lib/exporters.ts:11 | `JSON.stringify` gives a non-empty text with no line break; an object's text starts with `{` and ends with `}`, an array's with `[` and `]`. |
| Jsonl.FindRole | src/lib/clientDb.ts:548-549 | Models `find` over the role list. It reports the first entry whose role matches. It throws exactly when a `null` entry comes before any match, since reading `.role` of `null` fails. It reports missing only when every entry was inspected and none matched. |
| Jsonl.Extract | src/lib/clientDb.ts:546-560 | A parsed line yields `(input, output)` exactly when it is an object whose list holds a first user entry and a first answer entry, found without reading `.role` of `null`, whose texts are these two non-empty strings. Otherwise it yields nothing. |
| Jsonl.RecordShape | src/lib/exporters.ts:3-28 | An exported record has exactly two entries: the user's, then the model's (Gemini) or the assistant's (OpenAI chat). Their texts are the pair's input and output. |
| Jsonl.ExtractRecord | src/lib/clientDb.ts:546-560 | Extracting from an exported record of a pair with non-empty input and output gives back that input and output. |
| Jsonl.ImportLines | src/lib/clientDb.ts:534-537 | The kept lines are exactly the non-empty trims of the pieces of the text cut at `\r?\n`; no kept line is empty. |
| Jsonl.ImportLinesFirstLine | src/lib/clientDb.ts:534-537 | Lines are kept in text order: the trimmed first line comes first unless it is blank, followed by the lines of the rest. |
| Jsonl.NonBlank | src/lib/clientDb.ts:537 | `filter(l => l.length > 0)`: the result holds exactly the non-empty strings of the input, and is the input itself when none is empty. |
| Jsonl.Accepted | src/lib/clientDb.ts:540-575 | The import loop adds at most one pair per line, and every pair it adds has a non-empty input and output. |
| Jsonl.AcceptedTakes | src/lib/clientDb.ts:540-571 | Any line that parses and yields a pair, whatever else it holds, is imported with exactly those texts, ahead of the pairs of the later lines. |
| Jsonl.AcceptedSkips | src/lib/clientDb.ts:572-574 | A line that fails to parse or to extract is skipped; the lines after it are still imported. |
| Jsonl.AcceptedLines | src/lib/clientDb.ts:540-575 | Importing the export lines of pairs with non-empty texts accepts every line and recovers each pair's input and output, in order. |
| Jsonl.ImportLinesOfJoined | src/lib/clientDb.ts:534-537 | Joining export lines with `\n` and cutting them up again as the importer does gives back exactly those lines. |
| Exporters.ToGeminiJSONL | src/lib/exporters.ts:3-14 | The body is empty exactly when there are no items. Otherwise, cut at its line feeds it is exactly one Gemini record per item, in order, so the records are joined by single `\n`. It ends with `}`, with no trailing newline. |
| Exporters.ToOpenAIChatJSONL | src/lib/exporters.ts:17-28 | The same for OpenAI chat records: cut at its line feeds, the body is exactly the records in order. |
| Exporters.ExportName | src/lib/exporters.ts:31-43 | The file name is `dataset-gemini-` or `dataset-openai-chat-`, then the ISO time with every `:` and `.` turned into `-`, then `.jsonl`. |
| Exporters.ExportDataset | src/lib/exporters.ts:30-52 | The mime type is `application/x-ndjson`, the name is the format's download name, and the body is the chosen format's JSONL. |
| Exporters.ExportThenImport | src/lib/exporters.ts:30-52 | Importing an exported body in the same format accepts one record per item and recovers every input and output in order, for items with non-empty texts. |
| Transfer.NewPairs | src/lib/clientDb.ts:561-570 | One new pair per accepted line, in order, with consecutive fresh ids, the line's texts, no metadata and both stamps at now. |
| Transfer.ImportJSONL | src/lib/clientDb.ts:527-583 | Fails with "Dataset not found" exactly when the dataset is absent. The count is the number of accepted lines. The pairs are appended to the first dataset with the id, and that dataset is stamped. The document is saved exactly when the count is positive and is untouched when it is zero. |
| Transfer.ExportData | src/lib/clientDb.ts:586-609 | The export of `listPairs(datasetId)` is exactly what the standalone exporter produces for those pairs. |
| Transfer.ExportDataMatchesExporter | src/lib/clientDb.ts:586-609 | The text `exportData` returns is the body `exportDataset` produces for `listPairs(datasetId)`. |
| Transfer.ExportThenImportData | src/lib/clientDb.ts:527-609 | Importing the export of `listPairs(datasetId)` into any existing dataset imports one pair per exported pair, with the same inputs and outputs in order, when all texts are non-empty. |
| Backups.StampAsWrittenIsMalformed | src/lib/clientDb.ts:617 | The backup timestamp as written is the date, a dash, then only five of the six time digits (14 characters). It never has the `YYYYMMDD-HHMMSS` form. |
| Backups.StampPieces | src/lib/clientDb.ts:617 | For an instant built from its digit groups, the timestamp as written (`slice(0, -5)`) is the date, a dash, the hours, the minutes and only the first seconds digit; the intended one (`slice(0, -4)`) has both seconds digits. |
| Backups.AsWrittenListedTimestamp | src/lib/clientDb.ts:617-794 | A backup named with the timestamp as written is listed with its last second digit replaced by `0`. This differs from the true time whenever that digit is not `0`. |
| Backups.StampAsWrittenExample | src/lib/clientDb.ts:617 | At 2024-01-01T12:34:56.789Z the timestamp as written is `20240101-12345`; the intended one is `20240101-123456`. |
| Backups.StampIsWellFormed | src/lib/clientDb.ts:617 | The corrected timestamp is the date digits, a dash and all six time digits of the instant, which is the `YYYYMMDD-HHMMSS` form. |
| Backups.BackupName | src/lib/clientDb.ts:617-618 | The corrected backup name (`slice(0, -4)`): it starts with `backup-`, passes the listing's name filter, and carries a well-formed timestamp. |
| Backups.BackupNameAsWritten | src/lib/clientDb.ts:617-618 | The name `createBackup` writes: it starts with `backup-`, passes the listing's name filter, and its timestamp is the one as written, which is never well formed. |
| Backups.AsWrittenNamesCollide | src/lib/clientDb.ts:617-621 | Two backups taken within the same ten seconds get the same name as written, so the second overwrites the first. Under the corrected name they differ whenever the seconds differ. |
| Backups.ValidateAndFixTimestamp | src/lib/clientDb.ts:772-794 | A well-formed timestamp is kept. One of eight or more characters becomes its first eight, a dash, and its tail from index 9, padded with `0` to six. Anything shorter becomes the fallback. |
| Backups.RepairCompletesShortTime | src/lib/clientDb.ts:780-788 | A digit date followed by a short run of time digits is repaired into the well-formed form. |
| Backups.RepairIdempotent | src/lib/clientDb.ts:772-794 | Repairing an already repaired timestamp changes nothing. |
| Backups.RawTimestamp | src/lib/clientDb.ts:654-659 | The raw timestamp is what lies between the `backup-` or `db-` prefix and `.json`. |
| Backups.ItemCount | src/lib/clientDb.ts:650 | A backup's item count is the number of pairs across all its datasets, and zero without `datasets`. |
| Backups.Collect | src/lib/clientDb.ts:640-673 | The directory walk yields at most one row per entry. |
| Backups.CollectAppend | src/lib/clientDb.ts:640-673 | The rows keep entry order: the rows of two runs of entries are the rows of the first run, then those of the second. |
| Backups.CollectPush | src/lib/clientDb.ts:640-673 | One more entry pushes exactly its own row, after the earlier rows, when it is listable, and adds nothing otherwise. |
| Backups.CollectComplete | src/lib/clientDb.ts:640-673 | Every listable entry gets its row. |
| Backups.CollectSound | src/lib/clientDb.ts:640-673 | Every row comes from a listable entry. |
| Backups.SortNewestFirst | src/lib/clientDb.ts:676 | The rows are ordered by descending timestamp and are a permutation of the input. |
| Backups.ListBackupRows | src/lib/clientDb.ts:631-677 | The listing is newest first and holds exactly the rows of the listable entries, as a permutation: no row is lost or duplicated. |
| Session.Initial | src/lib/clientDb.ts:33-36 | A new instance, and the state after `reset()`: no directory, no document, no pending changes. |
| Session.GetDatabase | src/lib/clientDb.ts:220-225 | The loaded document; "Database not loaded" exactly when none is loaded. |
| Session.MarkChanged | src/lib/clientDb.ts:214-217 | Records the instant and marks changes pending, touching nothing else. |
| Session.SaveDatabase | src/lib/clientDb.ts:199-211 | Fails, changing nothing, exactly when the directory or the document is missing. Otherwise it stamps the document's `updatedAt` and marks changes pending at the same instant. |
| Session.Perform | src/lib/clientDb.ts:381-524 | A repository call on an unloaded session, or one that throws, leaves the state unchanged. A call that does not save replaces only the document. A call that saves also stamps the document and marks the change; without a directory it keeps the changed document in memory and reports that it could not save. |
| Session.LoadParsed | src/lib/clientDb.ts:122-145 | Fails without a directory. Otherwise the loaded document is the migrated one. It is saved (stamped, change marked) exactly when the stored document was legacy, that is when migration changed its version. |
| Session.CreateBackup | src/lib/clientDb.ts:612-629 | Fails exactly when the directory or the document is missing. Otherwise the backup holds the whole live document, under the corrected name whose timestamp is the creation instant. |
| Session.CreateBackupAsWritten | src/lib/clientDb.ts:612-629 | The same failure cases and snapshot, under the name the program writes. Its timestamp is the one as written, which is never well formed. |
| Session.CheckAutoBackup | src/lib/clientDb.ts:715-731 | A backup is created exactly when changes are pending, more than the interval has passed since the last change, and a backup can be written. Creating one clears the pending flag and reports the corrected name; otherwise nothing changes. |
| Session.AutoBackupSettles | src/lib/clientDb.ts:715-731 | Right after an automatic backup, another check at any later time creates nothing. |
| Session.SaveSchedulesBackup | src/lib/clientDb.ts:199-731 | After a save, a check creates a backup exactly when more than the interval has passed since that save. |
| Session.ListBackups | src/lib/clientDb.ts:631-677 | Fails without a directory. Otherwise it returns the listable entries' rows newest first, as a permutation of the rows in enumeration order, so each appears once. |
| Session.CreatedBackupIsListed | src/lib/clientDb.ts:612-677 | Under the corrected name, a backup just created is listed under its name, with the creation instant as its timestamp and the live document's total pair count. |
| Session.AsWrittenBackupIsListed | src/lib/clientDb.ts:612-677 | Under the name the program writes, a backup just created is listed with the timestamp as written padded by `0`. That differs from the creation instant whenever the seconds do not end in 0. It carries the live document's total pair count. |
| Session.RestoreBackup | src/lib/clientDb.ts:679-695 | Fails without a directory. A missing or unreadable backup fails with "Failed to restore backup" and changes nothing. Otherwise the migrated backup replaces the live document and is saved. |
| Session.RestoreReplacesPairs | src/lib/clientDb.ts:679-695 | After restoring a v2 backup, the live pairs are exactly the backup's pairs, whatever the live document held before. |
| Preferences.Defaults | src/lib/preferences.ts:10-15 | OpenAI chat export, welcome guide shown, folder not remembered, 20 rows a page. |
| Preferences.Merge | src/lib/preferences.ts:30-47 | Object spread: every key the update carries overrides; every other key keeps its value. |
| Preferences.DecodeEncode | src/lib/preferences.ts:26-48 | Reading back the record `setPreferences` writes recovers every preference. |
| Preferences.GetPreferences | src/lib/preferences.ts:20-37 | The defaults when there is no window, no item, an empty item, or an item that fails to parse. Otherwise the stored keys merged over the defaults. |
| Preferences.SetPreferences | src/lib/preferences.ts:40-52 | Without a window, or when the write fails, nothing changes. Otherwise it stores the current preferences with the update merged over them. |
| Preferences.GetAfterSet | src/lib/preferences.ts:20-52 | After a successful write, reading gives the previous preferences with the update merged over them. Keys not in the update keep their previous values. |
| Preferences.ExportFormatRoundTrip | src/lib/preferences.ts:55-61 | The format set is the format read back; the other three preferences are unchanged. |
| Preferences.WelcomeGuideRoundTrip | src/lib/preferences.ts:63-69 | The flag set is the flag read back; the other preferences are unchanged. |
| Preferences.RememberFolderRoundTrip | src/lib/preferences.ts:71-77 | The flag set is the flag read back; the other preferences are unchanged. |
| Preferences.PageSizeRoundTrip | src/lib/preferences.ts:79-85 | The page size set is the page size read back; the other preferences are unchanged. |
| Preferences.FreshStoreReadsDefaults | src/lib/preferences.ts:20-37 | A store never written to, or no window at all, reads as the defaults. |
| Preferences.GetDefaultExportFormat | src/lib/preferences.ts:55-57 | With no window or nothing stored, the default export format. |
| Preferences.SetDefaultExportFormat | src/lib/preferences.ts:59-61 | Without a window, or when the write fails, the store is unchanged; otherwise an item is written. |
| Preferences.GetShouldShowWelcomeGuide | src/lib/preferences.ts:63-65 | With no window or nothing stored, the default welcome-guide flag. |
| Preferences.SetShouldShowWelcomeGuide | src/lib/preferences.ts:67-69 | Without a window, or when the write fails, the store is unchanged; otherwise an item is written. |
| Preferences.GetRememberFolder | src/lib/preferences.ts:71-73 | With no window or nothing stored, the default remember-folder flag. |
| Preferences.SetRememberFolder | src/lib/preferences.ts:75-77 | Without a window, or when the write fails, the store is unchanged; otherwise an item is written. |
| Preferences.GetDefaultPageSize | src/lib/preferences.ts:79-81 | With no window or nothing stored, the default page size. |
| Preferences.SetDefaultPageSize | src/lib/preferences.ts:83-85 | Without a window, or when the write fails, the store is unchanged; otherwise an item is written. |

## Left out

- File system access (directory picker, handle persistence in IndexedDB, permission requests), downloads, the DOM and logging are not modelled. File contents reach the model already read and parsed (`Option<Document>` for backups and the database file, `Backups.Entry` for directory listings).
- Session.LoadParsed: only the branch for a non-empty file that parses is modelled. The zero-length-file branch and the `SyntaxError` branch, which both start from an empty document, depend on real file reads.
- Session.SaveDatabase: a failed write of `DataGreg.json` is not modelled; every save with a directory and a document succeeds.
- Session.CreateBackup: a failed backup write is not modelled, so the automatic backup fails only when the directory or the document is missing.
- Session.RestoreBackup: a backup that parses but is not a document is not distinguished from a readable document; reading yields a typed document or nothing.
- `deleteBackup`, `cleanupMalformedBackups`, the download helpers, `isSupported` and the browser compatibility messages are not modelled: they are file or browser plumbing with no data logic beyond the timestamp form already covered.
- Migration.Migrate: the version is an integer or absent; non-integer or non-number JSON values for `version` are not modelled. A non-array `items` or `datasets` is read as `None` when the document is decoded, so it becomes the empty list here, as `Array.isArray` makes it in the source.
- Repository.ListPairs: dataset items are always a list; the `d.items?.length || 0` guard in the item count and a null `items` array are not modelled.
- Every clock read inside one operation is the same instant. The source reads the clock separately, for instance for each imported pair and for the dataset stamp after an import.
- UUIDs are parameters. Freshness is assumed where a lemma needs it (`Repository.CreateThenAddThenList`), not produced.
- Json.Stringify formats numbers as integers only; floating-point numbers are not modelled. The database file is written with two-space indentation, but its text is never read back by the model.
- Backups.ListBackupRows: `localeCompare` is modelled as code-point order. The two agree on timestamps made only of digits with a dash at index 8, but the repair keeps any other characters (`snapshot-a` becomes `snapshot-a00000`), and for letters, case or punctuation the locale collation orders differently. The order is proved only for code-point order. Stability of `Array.prototype.sort` among equal timestamps is not proved, only order and permutation.
- Backups.RawTimestamp and Backups.ValidateAndFixTimestamp: lengths and indices count characters, where JavaScript counts UTF-16 code units. They differ on names containing characters outside the Basic Multilingual Plane; backup names the program writes contain only ASCII.
- Session.CreateBackup: it names the backup with the corrected timestamp (`slice(0, -4)`), not the one the program writes. The name as written, and the fact that backups within the same ten seconds overwrite each other, are stated by Session.CreateBackupAsWritten, Backups.BackupNameAsWritten and Backups.AsWrittenNamesCollide.
- Session.CheckAutoBackup: it reports the corrected backup name; the name the program writes is the one of Session.CreateBackupAsWritten.
- Session.CheckAutoBackup: the interval is an integer number of minutes passed by the caller; the source's default of 60 minutes and fractional intervals (its parameter is a `number`) are not modelled.
- Session.CreatedBackupIsListed: it lists the backup under the corrected name and timestamp; with the name as written, the listed timestamp is the one Session.AsWrittenBackupIsListed states.
- Session.ListBackups: the fallback timestamp it passes for an unrepairable name is the corrected timestamp form (`slice(0, -4)`, see Findings) of the instant of the listing, where the source's fallback at clientDb.ts:793 slices to -5 and so yields the 14-character form.
- Backups.ItemCount: backup files reach the model already decoded. A file whose `datasets` is present, not `null` and not an array (`{}`, `5` or `"x"`, say), or is an array holding a `null` dataset, makes the count throw and the source skip the file; the model expects such a file as `parsed == None`. A `null` `datasets` does not throw: the source lists the file with count 0, and the model decodes it to `datasets == None`, which `ItemCount` counts as 0. A dataset whose `items` is a non-array with a `length` (a string, say) is counted by that length in the source; the model's datasets always hold a list of pairs.
- Preferences.GetPreferences: stored keys other than the four preferences, stored values of the wrong JSON type, and a stored export format that is a string other than `gemini` or `openai_chat` are dropped by the model (the last reads as the default format), whereas object spread in the source carries them through. A stored JSON value that is not an object reads as the defaults. `localStorage.getItem` throwing is not modelled.
- Concurrency between the asynchronous calls is not modelled; each operation runs to completion before the next.

## Findings

| source | as written | input that shows it | evidently intended | confidence | as-written member | corrected member |
|---|---|---|---|---|---|---|
| src/lib/clientDb.ts:617 (and the fallback at 793) | `toISOString()` with `-`, `:` and `.` removed and `T` replaced by `-`, then `.slice(0, -5)`: this drops `sssZ` and also the last second digit, so the result has 14 characters | at `2024-01-01T12:34:56.789Z` the backup is named `backup-20240101-12345.json`; the listing then repairs the timestamp to `20240101-123450` | `.slice(0, -4)`, giving `20240101-123456`, the `YYYYMMDD-HHMMSS` form the listing validates against | high; not executed | Backups.StampAsWrittenIsMalformed, Backups.AsWrittenListedTimestamp, Backups.StampAsWrittenExample, Backups.AsWrittenNamesCollide, Session.AsWrittenBackupIsListed | Backups.StampIsWellFormed, Backups.BackupName |

=== FILE: backups.dfy ===
/**
 * Backup bookkeeping: the timestamp written into backup names, its repair when listing, the
 * selection of backup files among directory entries, their item counts and the newest-first order.
 */
module Backups {
  import opened Wrappers
  import opened Text
  import opened Types
  import Migration

  /** `/^(\d{8})-(\d{6})$/`: eight digits, a dash, six digits. */
  predicate IsStamp(s: string) {
    |s| == 15 && AllDigits(s[..8]) && s[8] == '-' && AllDigits(s[9..])
  }

  /** What `Date.prototype.toISOString` returns for years 0 to 9999: `YYYY-MM-DDTHH:MM:SS.sssZ`. */
  predicate IsIsoInstant(s: string) {
    && |s| == 24
    && AllDigits(s[0..4]) && s[4] == '-' && AllDigits(s[5..7]) && s[7] == '-' && AllDigits(s[8..10])
    && s[10] == 'T' && AllDigits(s[11..13]) && s[13] == ':' && AllDigits(s[14..16]) && s[16] == ':'
    && AllDigits(s[17..19]) && s[19] == '.' && AllDigits(s[20..23]) && s[23] == 'Z'
  }

  /** `iso.replace(/[-:.]/g, "").replace("T", "-")`: `YYYYMMDD-HHMMSSsssZ`. */
  function Compact(iso: string): string {
    ReplaceFirst(RemoveAll(iso, Separators), 'T', '-')
  }

  /** The characters the first replacement removes. */
  const Separators: set<char> := {'-', ':', '.'}

  /** The timestamp as the source computes it, `Compact(iso).slice(0, -5)`. */
  function StampAsWritten(iso: string): string {
    SliceFromTo(Compact(iso), 0, 5)
  }

  /** The timestamp as intended, `Compact(iso).slice(0, -4)`: drops only the milliseconds and `Z`. */
  function Stamp(iso: string): string {
    SliceFromTo(Compact(iso), 0, 4)
  }

  lemma {:induction false} RemoveAllAppend(a: string, b: string, drop: set<char>)
    ensures RemoveAll(a + b, drop) == RemoveAll(a, drop) + RemoveAll(b, drop)
    decreases |a|
  {
    if |a| == 0 {
      assert a + b == b;
    } else {
      var head := if a[0] in drop then "" else [a[0]];
      assert (a + b)[0] == a[0];
      assert (a + b)[1..] == a[1..] + b;
      assert RemoveAll(a + b, drop) == head + RemoveAll(a[1..] + b, drop);
      assert RemoveAll(a, drop) == head + RemoveAll(a[1..], drop);
      RemoveAllAppend(a[1..], b, drop);
      assert head + (RemoveAll(a[1..], drop) + RemoveAll(b, drop))
          == (head + RemoveAll(a[1..], drop)) + RemoveAll(b, drop);
    }
  }

  lemma {:induction false} RemoveAllKeeps(a: string, drop: set<char>)
    requires forall i :: 0 <= i < |a| ==> a[i] !in drop
    ensures RemoveAll(a, drop) == a
    decreases |a|
  {
    if |a| > 0 {
      RemoveAllKeeps(a[1..], drop);
      assert [a[0]] + a[1..] == a;
    }
  }

  lemma {:induction false} ReplaceFirstAfter(a: string, ct: string, dt: string, b: string)
    requires |ct| == 1 && |dt| == 1 && ct[0] !in a
    ensures ReplaceFirst(a + ct + b, ct[0], dt[0]) == a + dt + b
    decreases |a|
  {
    if |a| > 0 {
      assert (a + ct + b)[1..] == a[1..] + ct + b;
      ReplaceFirstAfter(a[1..], ct, dt, b);
      assert a + dt + b == [a[0]] + (a[1..] + dt + b);
    } else {
      assert a + ct + b == ct + b;
      assert a + dt + b == dt + b;
      assert (ct + b)[1..] == b;
    }
  }

  /** One character is dropped when it is a separator and kept otherwise. */
  lemma RemoveOne(c: char)
    ensures RemoveAll([c], Separators) == if c in Separators then [] else [c]
  {
    assert [c][1..] == [];
  }

  /** The digit groups `toISOString` writes: year, month, day, hours, minutes, seconds, milliseconds. */
  predicate DigitGroups(y: string, mo: string, d: string, h: string, mi: string, sec: string, ms: string) {
    && |y| == 4 && |mo| == 2 && |d| == 2 && |h| == 2 && |mi| == 2 && |sec| == 2 && |ms| == 3
    && AllDigits(y) && AllDigits(mo) && AllDigits(d) && AllDigits(h) && AllDigits(mi) && AllDigits(sec) && AllDigits(ms)
  }

  /** `YYYY-MM-DDTHH:MM:SS.sssZ` assembled from its digit groups. */
  function IsoOf(y: string, mo: string, d: string, h: string, mi: string, sec: string, ms: string): string {
    y + "-" + mo + "-" + d + "T" + h + ":" + mi + ":" + sec + "." + ms + "Z"
  }

  /** An ISO instant is its digit groups joined by its separators. */
  lemma IsoPieces(iso: string)
    requires IsIsoInstant(iso)
    ensures iso == IsoOf(iso[0..4], iso[5..7], iso[8..10], iso[11..13], iso[14..16], iso[17..19], iso[20..23])
    ensures DigitGroups(iso[0..4], iso[5..7], iso[8..10], iso[11..13], iso[14..16], iso[17..19], iso[20..23])
  {
    assert iso[0..4] + "-" == iso[0..5];
    assert iso[0..5] + iso[5..7] == iso[0..7];
    assert iso[0..7] + "-" == iso[0..8];
    assert iso[0..8] + iso[8..10] == iso[0..10];
    assert iso[0..10] + "T" == iso[0..11];
    assert iso[0..11] + iso[11..13] == iso[0..13];
    assert iso[0..13] + ":" == iso[0..14];
    assert iso[0..14] + iso[14..16] == iso[0..16];
    assert iso[0..16] + ":" == iso[0..17];
    assert iso[0..17] + iso[17..19] == iso[0..19];
    assert iso[0..19] + "." == iso[0..20];
    assert iso[0..20] + iso[20..23] == iso[0..23];
    assert iso[0..23] + "Z" == iso;
  }

  /** Appending characters that are not separators appends them to the result. */
  lemma KeepStep(x: string, g: string, r: string)
    requires RemoveAll(x, Separators) == r
    requires forall i :: 0 <= i < |g| ==> g[i] !in Separators
    ensures RemoveAll(x + g, Separators) == r + g
  {
    RemoveAllAppend(x, g, Separators);
    RemoveAllKeeps(g, Separators);
  }

  /** Appending one separator leaves the result as it was. */
  lemma DropStep(x: string, g: string, r: string)
    requires RemoveAll(x, Separators) == r
    requires |g| == 1 && g[0] in Separators
    ensures RemoveAll(x + g, Separators) == r
  {
    RemoveAllAppend(x, g, Separators);
    assert g == [g[0]];
    RemoveOne(g[0]);
  }

  lemma NoSeparatorIn(g: string)
    requires AllDigits(g) || g == "T" || g == "Z"
    ensures forall i :: 0 <= i < |g| ==> g[i] !in Separators
  {
  }

  /** Removing the separators of an assembled instant keeps the groups, the `T` and the `Z`. */
  lemma RemoveSeparators(y: string, mo: string, d: string, h: string, mi: string, sec: string, ms: string)
    requires DigitGroups(y, mo, d, h, mi, sec, ms)
    ensures RemoveAll(IsoOf(y, mo, d, h, mi, sec, ms), Separators) == y + mo + d + "T" + h + mi + sec + ms + "Z"
  {
    NoSeparatorIn(y); NoSeparatorIn(mo); NoSeparatorIn(d); NoSeparatorIn(h);
    NoSeparatorIn(mi); NoSeparatorIn(sec); NoSeparatorIn(ms); NoSeparatorIn("T"); NoSeparatorIn("Z");
    RemoveAllKeeps(y, Separators);
    DropStep(y, "-", y);
    KeepStep(y + "-", mo, y);
    DropStep(y + "-" + mo, "-", y + mo);
    KeepStep(y + "-" + mo + "-", d, y + mo);
    KeepStep(y + "-" + mo + "-" + d, "T", y + mo + d);
    KeepStep(y + "-" + mo + "-" + d + "T", h, y + mo + d + "T");
    DropStep(y + "-" + mo + "-" + d + "T" + h, ":", y + mo + d + "T" + h);
    KeepStep(y + "-" + mo + "-" + d + "T" + h + ":", mi, y + mo + d + "T" + h);
    DropStep(y + "-" + mo + "-" + d + "T" + h + ":" + mi, ":", y + mo + d + "T" + h + mi);
    KeepStep(y + "-" + mo + "-" + d + "T" + h + ":" + mi + ":", sec, y + mo + d + "T" + h + mi);
    DropStep(y + "-" + mo + "-" + d + "T" + h + ":" + mi + ":" + sec, ".", y + mo + d + "T" + h + mi + sec);
    KeepStep(y + "-" + mo + "-" + d + "T" + h + ":" + mi + ":" + sec + ".", ms, y + mo + d + "T" + h + mi + sec);
    KeepStep(y + "-" + mo + "-" + d + "T" + h + ":" + mi + ":" + sec + "." + ms, "Z", y + mo + d + "T" + h + mi + sec + ms);
  }

  /** The compact form of an assembled instant: the date digits, a dash, then the rest. */
  lemma CompactOf(y: string, mo: string, d: string, h: string, mi: string, sec: string, ms: string)
    requires DigitGroups(y, mo, d, h, mi, sec, ms)
    ensures Compact(IsoOf(y, mo, d, h, mi, sec, ms)) == y + mo + d + "-" + h + mi + sec + ms + "Z"
  {
    RemoveSeparators(y, mo, d, h, mi, sec, ms);
    var date := y + mo + d;
    var rest := h + mi + sec + ms + "Z";
    assert y + mo + d + "T" + h + mi + sec + ms + "Z" == date + "T" + rest;
    assert 'T' !in date by {
      assert forall i :: 0 <= i < |date| ==> IsDigit(date[i]);
    }
    ReplaceFirstAfter(date, "T", "-", rest);
    assert date + "-" + rest == y + mo + d + "-" + h + mi + sec + ms + "Z";
  }

  /** Both timestamps of an assembled instant, digit group by digit group. */
  lemma StampPieces(y: string, mo: string, d: string, h: string, mi: string, sec: string, ms: string)
    requires DigitGroups(y, mo, d, h, mi, sec, ms)
    ensures Stamp(IsoOf(y, mo, d, h, mi, sec, ms)) == y + mo + d + "-" + h + mi + sec
    ensures StampAsWritten(IsoOf(y, mo, d, h, mi, sec, ms)) == y + mo + d + "-" + h + mi + sec[..1]
  {
    CompactOf(y, mo, d, h, mi, sec, ms);
    var t := y + mo + d + "-" + h + mi;
    var c := Compact(IsoOf(y, mo, d, h, mi, sec, ms));
    assert c == (t + sec) + (ms + "Z");
    assert c[..|t + sec|] == t + sec;
    assert sec == sec[..1] + sec[1..];
    assert c == (t + sec[..1]) + (sec[1..] + ms + "Z");
    assert c[..|t + sec[..1]|] == t + sec[..1];
  }

  /** The intended timestamp of an ISO instant is well formed: date digits, a dash, time digits. */
  lemma StampIsWellFormed(iso: string)
    requires IsIsoInstant(iso)
    ensures Stamp(iso) == iso[0..4] + iso[5..7] + iso[8..10] + "-" + iso[11..13] + iso[14..16] + iso[17..19]
    ensures IsStamp(Stamp(iso))
  {
    IsoPieces(iso);
    StampPieces(iso[0..4], iso[5..7], iso[8..10], iso[11..13], iso[14..16], iso[17..19], iso[20..23]);
    var date := iso[0..4] + iso[5..7] + iso[8..10];
    var time := iso[11..13] + iso[14..16] + iso[17..19];
    DigitsJoin(iso[0..4], iso[5..7], iso[8..10]);
    DigitsJoin(iso[11..13], iso[14..16], iso[17..19]);
    DashedStamp(date, time);
  }

  lemma DigitsJoin(a: string, b: string, c: string)
    requires AllDigits(a) && AllDigits(b) && AllDigits(c)
    ensures AllDigits(a + b + c)
  {
  }

  lemma DashedStamp(date: string, time: string)
    requires |date| == 8 && |time| == 6 && AllDigits(date) && AllDigits(time)
    ensures IsStamp(date + "-" + time)
  {
    var s := date + "-" + time;
    assert s == date + ("-" + time);
    assert s[..8] == date && s[9..] == time;
  }

  /**
   * The timestamp as written keeps one digit too few: fourteen characters, the last second
   * digit lost, so it never has the form the listing expects.
   */
  lemma StampAsWrittenIsMalformed(iso: string)
    requires IsIsoInstant(iso)
    ensures StampAsWritten(iso) == iso[0..4] + iso[5..7] + iso[8..10] + "-" + iso[11..13] + iso[14..16] + iso[17..18]
    ensures |StampAsWritten(iso)| == 14 && !IsStamp(StampAsWritten(iso))
  {
    IsoPieces(iso);
    StampPieces(iso[0..4], iso[5..7], iso[8..10], iso[11..13], iso[14..16], iso[17..19], iso[20..23]);
    assert iso[17..19][..1] == iso[17..18];
  }

  /**
   * What the listing then shows for a backup named with the timestamp as written: the repair
   * pads the missing digit with '0', so the listed time is the true one with its last second
   * digit zeroed, and differs from it whenever that digit is not '0'.
   */
  lemma AsWrittenListedTimestamp(iso: string, fallback: string)
    requires IsIsoInstant(iso)
    ensures ValidateAndFixTimestamp(StampAsWritten(iso), fallback) == StampAsWritten(iso) + "0"
    ensures Stamp(iso) == StampAsWritten(iso) + iso[18..19]
    ensures iso[18] != '0' ==> ValidateAndFixTimestamp(StampAsWritten(iso), fallback) != Stamp(iso)
  {
    StampAsWrittenIsMalformed(iso);
    StampIsWellFormed(iso);
    var w := StampAsWritten(iso);
    var r := ValidateAndFixTimestamp(w, fallback);
    assert SliceFrom(w, 9) == w[9..];
    assert |r| == 15 && r[..8] == w[..8] && r[8] == '-' && r[9..14] == w[9..] && r[14] == '0';
    assert r == w + "0" by {
      forall k | 0 <= k < 15
        ensures r[k] == (w + "0")[k]
      {
        if k < 8 {
          assert r[k] == r[..8][k];
        } else if 9 <= k < 14 {
          assert r[k] == r[9..14][k - 9];
        }
      }
    }
    var t := Stamp(iso);
    if iso[18] != '0' {
      assert r[14] != t[14];
    }
  }

  /**
   * A concrete instance, 12:34:56.789 on 1 January 2024: the name as written carries
   * "20240101-12345", the intended one "20240101-123456".
   */
  lemma StampAsWrittenExample()
    ensures StampAsWritten(IsoOf("2024", "01", "01", "12", "34", "56", "789")) == "2024" + "01" + "01" + "-" + "12" + "34" + "5"
    ensures Stamp(IsoOf("2024", "01", "01", "12", "34", "56", "789")) == "2024" + "01" + "01" + "-" + "12" + "34" + "56"
  {
    StampPieces("2024", "01", "01", "12", "34", "56", "789");
    assert "56"[..1] == "5";
  }

  /**
   * The name of a backup taken at `iso` under the corrected timestamp (`slice(0, -4)`);
   * `BackupNameAsWritten` is the name `createBackup` actually writes.
   */
  function BackupName(iso: string): (r: string)
    ensures IsBackupFileName(r) && StartsWith(r, "backup-")
    ensures IsIsoInstant(iso) ==> IsStamp(RawTimestamp(r))
  {
    var r := "backup-" + Stamp(iso) + ".json";
    assert r[..7] == "backup-" && r[|r| - 5..] == ".json";
    if IsIsoInstant(iso) then
      StampIsWellFormed(iso);
      r
    else r
  }

  /** The name `createBackup` writes for a backup taken at `iso`: "backup-", the timestamp as written, ".json". */
  function BackupNameAsWritten(iso: string): (r: string)
    ensures IsBackupFileName(r) && StartsWith(r, "backup-")
    ensures IsIsoInstant(iso) ==> RawTimestamp(r) == StampAsWritten(iso) && !IsStamp(RawTimestamp(r))
  {
    var r := "backup-" + StampAsWritten(iso) + ".json";
    assert r[..7] == "backup-" && r[|r| - 5..] == ".json";
    if IsIsoInstant(iso) then
      StampAsWrittenIsMalformed(iso);
      Unwrap("backup-", RawTimestamp(r), StampAsWritten(iso), ".json");
      r
    else r
  }

  lemma Unwrap(p: string, a: string, b: string, q: string)
    requires p + a + q == p + b + q
    ensures a == b
  {
    assert |a| == |b|;
    assert a == (p + a + q)[|p|..|p| + |a|];
    assert b == (p + b + q)[|p|..|p| + |b|];
  }

  /**
   * Two backups taken within the same ten seconds get the same name as written, so the
   * second overwrites the first; under the corrected name they differ whenever the seconds do.
   */
  lemma AsWrittenNamesCollide(iso1: string, iso2: string)
    requires IsIsoInstant(iso1) && IsIsoInstant(iso2) && iso1[..18] == iso2[..18]
    ensures BackupNameAsWritten(iso1) == BackupNameAsWritten(iso2)
    ensures iso1[18] != iso2[18] ==> BackupName(iso1) != BackupName(iso2)
  {
    StampAsWrittenIsMalformed(iso1);
    StampAsWrittenIsMalformed(iso2);
    assert forall k :: 0 <= k < 18 ==> iso1[k] == iso2[k] by {
      forall k | 0 <= k < 18 ensures iso1[k] == iso2[k] {
        assert iso1[k] == iso1[..18][k];
      }
    }
    assert iso1[0..4] == iso2[0..4] && iso1[5..7] == iso2[5..7] && iso1[8..10] == iso2[8..10];
    assert iso1[11..13] == iso2[11..13] && iso1[14..16] == iso2[14..16] && iso1[17..18] == iso2[17..18];
    if iso1[18] != iso2[18] {
      LastSecondDigit(iso1);
      LastSecondDigit(iso2);
    }
  }

  /** The corrected name carries the last digit of the seconds at index 21. */
  lemma LastSecondDigit(iso: string)
    requires IsIsoInstant(iso)
    ensures |BackupName(iso)| > 21 && BackupName(iso)[21] == iso[18]
  {
    StampIsWellFormed(iso);
    var t := Stamp(iso);
    var u := iso[0..4] + iso[5..7] + iso[8..10] + "-" + iso[11..13] + iso[14..16];
    assert t == u + iso[17..19];
    assert t[14] == iso[18];
    assert BackupName(iso) == "backup-" + t + ".json";
    assert BackupName(iso)[21] == ("backup-" + t)[21] == t[14];
  }

  /**
   * `validateAndFixTimestamp`: a well-formed timestamp is kept; a string of eight or more
   * characters keeps its first eight, then a dash, then its tail from index 9 padded on the
   * right with '0' to six characters ("000000" when the tail is empty); a shorter string is
   * replaced by `fallback`, the current instant's timestamp.
   */
  function ValidateAndFixTimestamp(ts: string, fallback: string): (r: string)
    ensures IsStamp(ts) ==> r == ts
    ensures !IsStamp(ts) && |ts| < 8 ==> r == fallback
    ensures !IsStamp(ts) && |ts| >= 8 ==>
      var tail := SliceFrom(ts, 9);
      && |r| == 9 + (if |tail| < 6 then 6 else |tail|)
      && r[..8] == ts[..8] && r[8] == '-'
      && r[9..9 + |tail|] == tail
      && (forall i :: 9 + |tail| <= i < |r| ==> r[i] == '0')
  {
    if IsStamp(ts) then ts
    else if |ts| >= 8 then
      var time := SliceFrom(ts, 9);
      var time := if time == "" then "000000" else time;
      ts[..8] + "-" + PadEnd(time, 6, '0')
    else fallback
  }

  /** A short time part made of digits is repaired into a well-formed timestamp. */
  lemma RepairCompletesShortTime(ts: string, fallback: string)
    requires |ts| >= 8 && AllDigits(ts[..8]) && |ts| <= 15 && AllDigits(SliceFrom(ts, 9))
    ensures IsStamp(ValidateAndFixTimestamp(ts, fallback))
  {
    var r := ValidateAndFixTimestamp(ts, fallback);
    if !IsStamp(ts) {
      var tail := SliceFrom(ts, 9);
      assert r[..8] == ts[..8];
      forall i | 0 <= i < 6 ensures IsDigit(r[9..][i]) {
        if i < |tail| {
          assert r[9 + i] == tail[i];
        }
      }
    }
  }

  /** The repair is idempotent whenever its fallback is well formed. */
  lemma RepairIdempotent(ts: string, fallback: string)
    requires |ts| >= 8 || IsStamp(fallback)
    ensures var r := ValidateAndFixTimestamp(ts, fallback);
      ValidateAndFixTimestamp(r, fallback) == r
  {
    var r := ValidateAndFixTimestamp(ts, fallback);
    if !IsStamp(ts) && |ts| >= 8 && !IsStamp(r) {
      var tail := SliceFrom(r, 9);
      assert tail == r[9..];
      assert |tail| >= 6;
      assert r[..8] + "-" + PadEnd(tail, 6, '0') == r;
    }
  }

  /**
   * One directory entry as the listing sees it. `parsed` is the file's content as a document, or
   * `None` when reading it fails in any way that skips the file: it cannot be read, it does not
   * parse, or counting its items throws (`datasets` present, not `null` and not an array, such
   * as `{}`, `5` or `"x"`, or an array holding a `null` dataset). A `null` `datasets` does not
   * throw: it decodes to `datasets == None` and counts zero.
   */
  datatype Entry = Entry(name: string, isFile: bool, parsed: Option<Document>, size: nat)

  /** One row of the listing. */
  datatype BackupInfo = BackupInfo(filename: string, timestamp: string, itemCount: nat, size: nat)

  /** `(name.startsWith("backup-") || name.startsWith("db-")) && name.endsWith(".json")` */
  predicate IsBackupFileName(name: string) {
    (StartsWith(name, "backup-") || StartsWith(name, "db-")) && EndsWith(name, ".json")
  }

  /** A name with a prefix free of '.' and the suffix ".json" is long enough for both. */
  lemma PrefixBeforeSuffix(name: string, prefix: string)
    requires StartsWith(name, prefix) && EndsWith(name, ".json") && '.' !in prefix
    ensures |name| >= |prefix| + 5
  {
    assert name[|name| - 5] == '.';
    assert forall i :: 0 <= i < |prefix| ==> name[i] == prefix[i];
  }

  /** The raw timestamp of a backup name: the text between the prefix and ".json". */
  function RawTimestamp(name: string): (r: string)
    requires IsBackupFileName(name)
    ensures StartsWith(name, "backup-") ==> name == "backup-" + r + ".json"
    ensures !StartsWith(name, "backup-") ==> name == "db-" + r + ".json"
  {
    var prefix := if StartsWith(name, "backup-") then "backup-" else "db-";
    PrefixBeforeSuffix(name, prefix);
    var r := SliceFromTo(name, |prefix|, 5);
    assert name == name[..|prefix|] + r + name[|name| - 5..];
    r
  }

  /** The pairs of all datasets together; a document without datasets (a legacy one) counts zero. */
  function ItemCount(doc: Document): (r: nat)
    ensures r == |AllPairs(DatasetsOf(doc))|
  {
    CountItems(DatasetsOf(doc))
  }

  function CountItems(ds: seq<Dataset>): (r: nat)
    ensures r == |AllPairs(ds)|
  {
    if |ds| == 0 then 0 else |ds[0].items| + CountItems(ds[1..])
  }

  /** Whether the listing includes an entry: a file with a backup name whose content parses. */
  predicate Listed(e: Entry) {
    e.isFile && IsBackupFileName(e.name) && e.parsed.Some?
  }

  function Info(e: Entry, fallback: string): BackupInfo
    requires Listed(e)
  {
    BackupInfo(e.name, ValidateAndFixTimestamp(RawTimestamp(e.name), fallback), ItemCount(e.parsed.value), e.size)
  }

  /** The rows of the listing in enumeration order, before sorting. */
  function Collect(entries: seq<Entry>, fallback: string): (r: seq<BackupInfo>)
    ensures |r| <= |entries|
  {
    if |entries| == 0 then []
    else (if Listed(entries[0]) then [Info(entries[0], fallback)] else []) + Collect(entries[1..], fallback)
  }

  /** Every listed entry gets a row. */
  lemma {:induction false} CollectComplete(entries: seq<Entry>, fallback: string, e: Entry)
    requires e in entries && Listed(e)
    ensures Info(e, fallback) in Collect(entries, fallback)
  {
    if entries[0] != e {
      CollectComplete(entries[1..], fallback, e);
    }
  }

  /** The walk keeps entry order: the rows of two runs of entries are the rows of each, in turn. */
  lemma {:induction false} CollectAppend(a: seq<Entry>, b: seq<Entry>, fallback: string)
    ensures Collect(a + b, fallback) == Collect(a, fallback) + Collect(b, fallback)
    decreases |a|
  {
    if |a| == 0 {
      assert a + b == b;
    } else {
      var head := if Listed(a[0]) then [Info(a[0], fallback)] else [];
      assert (a + b)[0] == a[0] && (a + b)[1..] == a[1..] + b;
      assert Collect(a + b, fallback) == head + Collect(a[1..] + b, fallback);
      assert Collect(a, fallback) == head + Collect(a[1..], fallback);
      CollectAppend(a[1..], b, fallback);
      assert head + (Collect(a[1..], fallback) + Collect(b, fallback))
          == (head + Collect(a[1..], fallback)) + Collect(b, fallback);
    }
  }

  /** The loop body: one more entry pushes its own row when it is listable, and nothing otherwise. */
  lemma CollectPush(entries: seq<Entry>, e: Entry, fallback: string)
    ensures Collect(entries + [e], fallback)
      == Collect(entries, fallback) + (if Listed(e) then [Info(e, fallback)] else [])
  {
    CollectAppend(entries, [e], fallback);
    assert Collect([e], fallback) == (if Listed(e) then [Info(e, fallback)] else []) + Collect([], fallback);
  }

  /** Every row comes from a listed entry. */
  lemma {:induction false} CollectSound(entries: seq<Entry>, fallback: string, b: BackupInfo)
    requires b in Collect(entries, fallback)
    ensures exists k :: 0 <= k < |entries| && Listed(entries[k]) && b == Info(entries[k], fallback)
  {
    assert |entries| > 0;
    var head := if Listed(entries[0]) then [Info(entries[0], fallback)] else [];
    assert Collect(entries, fallback) == head + Collect(entries[1..], fallback);
    if Listed(entries[0]) && b == Info(entries[0], fallback) {
      assert 0 < |entries|;
    } else {
      assert b !in head;
      assert b in Collect(entries[1..], fallback);
      CollectSound(entries[1..], fallback, b);
      var k :| 0 <= k < |entries[1..]| && Listed(entries[1..][k]) && b == Info(entries[1..][k], fallback);
      assert entries[k + 1] == entries[1..][k];
      assert Listed(entries[k + 1]) && b == Info(entries[k + 1], fallback);
    }
  }

  /** Newest first: the timestamps never increase along the sequence. */
  predicate NewestFirst(rows: seq<BackupInfo>) {
    forall i, j :: 0 <= i < j < |rows| ==> LexLeq(rows[j].timestamp, rows[i].timestamp)
  }

  /** No row is newer than `t`. */
  predicate NotNewerThan(rows: seq<BackupInfo>, t: string) {
    forall i :: 0 <= i < |rows| ==> LexLeq(rows[i].timestamp, t)
  }

  /** A row that is at least as new as every row of a newest-first list can go in front of it. */
  lemma PrependNewest(b: BackupInfo, rows: seq<BackupInfo>)
    requires NewestFirst(rows) && NotNewerThan(rows, b.timestamp)
    ensures NewestFirst([b] + rows)
  {
    var r := [b] + rows;
    forall i, j | 0 <= i < j < |r| ensures LexLeq(r[j].timestamp, r[i].timestamp) {
      assert r[j] == rows[j - 1];
      if i > 0 {
        assert r[i] == rows[i - 1];
      }
    }
  }

  /** In a newest-first list the first row bounds all rows. */
  lemma HeadBounds(rows: seq<BackupInfo>, t: string)
    requires NewestFirst(rows) && |rows| > 0 && LexLeq(rows[0].timestamp, t)
    ensures NotNewerThan(rows, t)
  {
    forall j | 0 <= j < |rows| ensures LexLeq(rows[j].timestamp, t) {
      if j > 0 {
        LexLeqTransitive(rows[j].timestamp, rows[0].timestamp, t);
      }
    }
  }

  /** A bound on every row carries over to a permutation of the rows with one more bounded row. */
  lemma BoundOfPermutation(r: seq<BackupInfo>, rows: seq<BackupInfo>, b: BackupInfo, t: string)
    requires multiset(r) == multiset(rows) + multiset{b}
    requires NotNewerThan(rows, t) && LexLeq(b.timestamp, t)
    ensures NotNewerThan(r, t)
  {
    forall i | 0 <= i < |r| ensures LexLeq(r[i].timestamp, t) {
      var x := r[i];
      assert x in multiset(r);
      if x != b {
        assert x in multiset(rows);
        var j :| 0 <= j < |rows| && rows[j] == x;
      }
    }
  }

  /** Places `b` before the first row that is not newer than it. */
  function Insert(b: BackupInfo, rows: seq<BackupInfo>): (r: seq<BackupInfo>)
    requires NewestFirst(rows)
    ensures NewestFirst(r)
    ensures multiset(r) == multiset(rows) + multiset{b}
  {
    if |rows| == 0 then [b]
    else if LexLeq(rows[0].timestamp, b.timestamp) then
      HeadBounds(rows, b.timestamp);
      PrependNewest(b, rows);
      [b] + rows
    else
      var head, tail := rows[0], rows[1..];
      assert rows == [head] + tail;
      LexLeqTotal(head.timestamp, b.timestamp);
      assert NewestFirst(tail) by {
        forall i, j | 0 <= i < j < |tail| ensures LexLeq(tail[j].timestamp, tail[i].timestamp) {
          assert tail[i] == rows[i + 1] && tail[j] == rows[j + 1];
        }
      }
      assert NotNewerThan(tail, head.timestamp) by {
        forall j | 0 <= j < |tail| ensures LexLeq(tail[j].timestamp, head.timestamp) {
          assert tail[j] == rows[j + 1];
        }
      }
      var rest := Insert(b, tail);
      BoundOfPermutation(rest, tail, b, head.timestamp);
      PrependNewest(head, rest);
      [head] + rest
  }

  /** `rows.sort((a, b) => b.timestamp.localeCompare(a.timestamp))`: the same rows, newest first. */
  function SortNewestFirst(rows: seq<BackupInfo>): (r: seq<BackupInfo>)
    ensures NewestFirst(r)
    ensures multiset(r) == multiset(rows)
  {
    if |rows| == 0 then []
    else
      assert rows == [rows[0]] + rows[1..];
      Insert(rows[0], SortNewestFirst(rows[1..]))
  }

  /**
   * The rows of `listBackups`, newest first: one per file entry with a backup name whose
   * content parses, with its repaired timestamp, its pair count and its size.
   */
  function ListBackupRows(entries: seq<Entry>, fallback: string): (r: seq<BackupInfo>)
    ensures NewestFirst(r)
    ensures multiset(r) == multiset(Collect(entries, fallback))
    ensures forall e :: e in entries && Listed(e) ==> Info(e, fallback) in r
    ensures forall b :: b in r ==> exists k :: 0 <= k < |entries| && Listed(entries[k]) && b == Info(entries[k], fallback)
  {
    var rows := Collect(entries, fallback);
    var r := SortNewestFirst(rows);
    forall e | e in entries && Listed(e) ensures Info(e, fallback) in r {
      CollectComplete(entries, fallback, e);
      assert Info(e, fallback) in multiset(rows);
    }
    forall b | b in r ensures exists k :: 0 <= k < |entries| && Listed(entries[k]) && b == Info(entries[k], fallback) {
      assert b in multiset(r);
      assert b in rows;
      CollectSound(entries, fallback, b);
    }
    r
  }
}

=== FILE: exporters.dfy ===
/** The standalone JSONL exporters: one encoder per format and the export-file description. */
module Exporters {
  import opened Wrappers
  import opened Text
  import opened Json
  import opened Types
  import opened Jsonl

  /**
   * `toGeminiJSONL`: one Gemini record per item, in order, joined by single line feeds: cut
   * at its line feeds the text is exactly the records.
   */
  function ToGeminiJSONL(items: seq<Pair>): (r: string)
    ensures r == "" <==> |items| == 0
    ensures |items| > 0 ==> SplitAtLineFeeds(r) == Lines(Gemini, items)
    ensures |items| > 0 ==> SplitLines(r) == Lines(Gemini, items) && r[|r| - 1] == '}'
  {
    Encode(Gemini, items)
  }

  /** `toOpenAIChatJSONL`: one OpenAI chat record per item, in order, joined by single line feeds. */
  function ToOpenAIChatJSONL(items: seq<Pair>): (r: string)
    ensures r == "" <==> |items| == 0
    ensures |items| > 0 ==> SplitAtLineFeeds(r) == Lines(OpenAIChat, items)
    ensures |items| > 0 ==> SplitLines(r) == Lines(OpenAIChat, items) && r[|r| - 1] == '}'
  {
    Encode(OpenAIChat, items)
  }

  /**
   * The lines of the items joined by line feeds, with no trailing line feed. Its lines are
   * exactly the items' records, so the text is empty exactly when there are no items.
   */
  function Encode(format: ExportFormat, items: seq<Pair>): (r: string)
    ensures r == "" <==> |items| == 0
    ensures |items| > 0 ==> SplitAtLineFeeds(r) == Lines(format, items)
    ensures |items| > 0 ==> SplitLines(r) == Lines(format, items) && r[|r| - 1] == '}'
  {
    if |items| > 0 then
      SplitLinesOfJoinedEncoded(format, items);
      EncodedEndsWithBrace(format, items);
      JoinLines(Lines(format, items))
    else
      JoinLines(Lines(format, items))
  }

  lemma SplitLinesOfJoinedEncoded(format: ExportFormat, items: seq<Pair>)
    requires |items| > 0
    ensures SplitAtLineFeeds(JoinLines(Lines(format, items))) == Lines(format, items)
    ensures SplitLines(JoinLines(Lines(format, items))) == Lines(format, items)
  {
    LinesSolid(format, items);
    SplitLinesOfJoinedSolid(Lines(format, items));
  }

  lemma EncodedEndsWithBrace(format: ExportFormat, items: seq<Pair>)
    requires |items| > 0
    ensures |JoinLines(Lines(format, items))| > 0
    ensures JoinLines(Lines(format, items))[|JoinLines(Lines(format, items))| - 1] == '}'
  {
    var lines := Lines(format, items);
    assert lines[|lines| - 1] == Line(format, items[|items| - 1]);
    JoinEndsWithLast(lines);
  }

  lemma {:induction false} JoinEndsWithLast(lines: seq<string>)
    requires |lines| > 0 && |lines[|lines| - 1]| > 0
    ensures |JoinLines(lines)| > 0
    ensures JoinLines(lines)[|JoinLines(lines)| - 1] == lines[|lines| - 1][|lines[|lines| - 1]| - 1]
  {
    if |lines| > 1 {
      JoinEndsWithLast(lines[1..]);
    }
  }

  /** What `exportDataset` returns: the download name, its media type and its text. */
  datatype ExportFile = ExportFile(filename: string, mimeType: string, body: string)

  const NdjsonType := "application/x-ndjson"

  function FilePrefix(format: ExportFormat): string {
    match format
    case Gemini => "dataset-gemini-"
    case OpenAIChat => "dataset-openai-chat-"
  }

  /**
   * The download name `exportDataset` gives: the format's prefix, the instant `iso` (an
   * ISO-8601 string) with ':' and '.' turned into '-', then ".jsonl".
   */
  function ExportName(format: ExportFormat, iso: string): (r: string)
    ensures StartsWith(r, FilePrefix(format)) && EndsWith(r, ".jsonl")
    ensures |r| == |FilePrefix(format)| + |iso| + 6
    ensures forall i :: 0 <= i < |iso| ==>
      r[|FilePrefix(format)| + i] == if iso[i] == ':' || iso[i] == '.' then '-' else iso[i]
  {
    var stamp := ReplaceAllChars(iso, {':', '.'}, '-');
    var name := FilePrefix(format) + stamp + ".jsonl";
    assert name[|name| - 6..] == ".jsonl";
    assert name[..|FilePrefix(format)|] == FilePrefix(format);
    name
  }

  /** `exportDataset`: the encoder's text for the chosen format, typed NDJSON, under its download name. */
  function ExportDataset(format: ExportFormat, items: seq<Pair>, iso: string): (r: ExportFile)
    ensures r.mimeType == "application/x-ndjson" && r.filename == ExportName(format, iso)
    ensures format == Gemini ==> r.body == ToGeminiJSONL(items) && StartsWith(r.filename, "dataset-gemini-")
    ensures format == OpenAIChat ==> r.body == ToOpenAIChatJSONL(items) && StartsWith(r.filename, "dataset-openai-chat-")
  {
    ExportFile(ExportName(format, iso), NdjsonType, Encode(format, items))
  }

  /**
   * Round trip: importing the body of an export, with any `JSON.parse` that reads back what
   * `JSON.stringify` wrote, yields the exported texts in order, for pairs with non-empty texts.
   */
  lemma ExportThenImport(format: ExportFormat, items: seq<Pair>, iso: string, parse: string -> Option<Json>)
    requires ReadsBackStringify(parse)
    requires AllNonEmpty(items)
    ensures Accepted(format, parse, ImportLines(ExportDataset(format, items, iso).body)) == Texts(items)
  {
    ImportLinesOfJoined(format, items);
    AcceptedLines(format, parse, items);
  }
}

=== FILE: json.dfy ===
/**
 * JSON values as the data layer sees them after `JSON.parse`, and the compact text
 * `JSON.stringify(value)` writes for them. Parsing text is not modelled here: callers
 * receive it as a function that may fail.
 */
module Json {
  import opened Wrappers
  import opened Text

  /** A JSON value. Numbers are the integers; objects keep their members in text order. */
  datatype Json =
    | JNull
    | JBool(b: bool)
    | JNum(n: int)
    | JStr(s: string)
    | JArr(elems: seq<Json>)
    | JObj(members: seq<Member>)

  datatype Member = Member(key: string, value: Json)

  /** `obj[key]` on an object: the last member with that key, as `JSON.parse` keeps the last duplicate. */
  function Lookup(members: seq<Member>, key: string): Option<Json> {
    if |members| == 0 then None
    else
      var last := members[|members| - 1];
      if last.key == key then Some(last.value) else Lookup(members[..|members| - 1], key)
  }

  /** JavaScript truthiness of a JSON value (`v || fallback` keeps `v` exactly when this holds). */
  predicate Truthy(v: Json) {
    match v
    case JNull => false
    case JBool(b) => b
    case JNum(n) => n != 0
    case JStr(s) => s != ""
    case JArr(_) => true
    case JObj(_) => true
  }

  /** Lower-case hexadecimal digit of `d`. */
  function HexDigit(d: nat): (c: char)
    requires d < 16
    ensures c != '\n' && c != '\r'
  {
    if d < 10 then ('0' as int + d) as char else ('a' as int + d - 10) as char
  }

  /** The escape `JSON.stringify` writes for one character of a string. */
  function EscapeChar(c: char): (r: string)
    ensures NoLineBreak(r)
    ensures |r| >= 1
  {
    var n := c as int;
    if c == '"' then "\\\""
    else if c == '\\' then "\\\\"
    else if n == 0x08 then "\\b"
    else if n == 0x0C then "\\f"
    else if c == '\n' then "\\n"
    else if c == '\r' then "\\r"
    else if c == '\t' then "\\t"
    else if n < 0x20 then "\\u00" + [HexDigit(n / 16), HexDigit(n % 16)]
    else [c]
  }

  function Escape(s: string): (r: string)
    ensures NoLineBreak(r)
  {
    if |s| == 0 then "" else EscapeChar(s[0]) + Escape(s[1..])
  }

  /** A string literal: the escaped characters between double quotes. */
  function Quote(s: string): (r: string)
    ensures |r| >= 2 && r[0] == '"' && r[|r| - 1] == '"'
    ensures NoLineBreak(r)
  {
    "\"" + Escape(s) + "\""
  }

  function DigitsOf(n: nat): (r: string)
    ensures |r| >= 1 && AllDigits(r)
  {
    if n < 10 then [HexDigit(n)] else DigitsOf(n / 10) + [HexDigit(n % 10)]
  }

  function NumberText(n: int): (r: string)
    ensures |r| >= 1 && NoLineBreak(r)
  {
    if n < 0 then "-" + DigitsOf(-n) else DigitsOf(n)
  }

  /**
   * `JSON.stringify(v)` with no indentation. Whatever the value, the text is non-empty and
   * holds no line feed or carriage return, since those are escaped inside string literals.
   */
  function Stringify(v: Json): (r: string)
    ensures |r| >= 1 && NoLineBreak(r)
    ensures v.JObj? ==> r[0] == '{' && r[|r| - 1] == '}'
    ensures v.JArr? ==> r[0] == '[' && r[|r| - 1] == ']'
    decreases v, 1
  {
    match v
    case JNull => "null"
    case JBool(b) => if b then "true" else "false"
    case JNum(n) => NumberText(n)
    case JStr(s) => Quote(s)
    case JArr(elems) => "[" + StringifyElems(elems) + "]"
    case JObj(members) => "{" + StringifyMembers(members) + "}"
  }

  /** The comma-separated texts of array elements. */
  function StringifyElems(elems: seq<Json>): (r: string)
    ensures NoLineBreak(r)
    decreases elems, 0
  {
    if |elems| == 0 then ""
    else if |elems| == 1 then Stringify(elems[0])
    else Stringify(elems[0]) + "," + StringifyElems(elems[1..])
  }

  /** The comma-separated `"key":value` texts of object members. */
  function StringifyMembers(members: seq<Member>): (r: string)
    ensures NoLineBreak(r)
    decreases members, 0
  {
    if |members| == 0 then ""
    else
      var m := members[0];
      var text := Quote(m.key) + ":" + Stringify(m.value);
      if |members| == 1 then text else text + "," + StringifyMembers(members[1..])
  }

  /** A parse function that reads back every text `Stringify` writes: what `JSON.parse` does. */
  ghost predicate ReadsBackStringify(parse: string -> Option<Json>) {
    forall v :: parse(Stringify(v)) == Some(v)
  }
}

=== FILE: jsonl.dfy ===
/**
 * The two JSONL line formats of import and export: how a pair is written as a JSON record, how
 * the importer reads a record back (with the JavaScript semantics of the importer's property
 * reads), and how a JSONL text is cut into lines.
 */
module Jsonl {
  import opened Wrappers
  import opened Text
  import opened Json
  import opened Types

  /** The key of the entry list: `contents` (Gemini) or `messages` (OpenAI chat). */
  function ListKey(format: ExportFormat): string {
    match format
    case Gemini => "contents"
    case OpenAIChat => "messages"
  }

  /** The role of the answer entry: `model` (Gemini) or `assistant` (OpenAI chat). */
  function AnswerRole(format: ExportFormat): string {
    match format
    case Gemini => "model"
    case OpenAIChat => "assistant"
  }

  /** One entry of the record: `{role, parts: [{text}]}` or `{role, content}`. */
  function Entry(format: ExportFormat, role: string, text: string): Json {
    match format
    case Gemini => JObj([Member("role", JStr(role)), Member("parts", JArr([JObj([Member("text", JStr(text))])]))])
    case OpenAIChat => JObj([Member("role", JStr(role)), Member("content", JStr(text))])
  }

  /** The record written for one pair: a user entry holding the input, then an answer entry holding the output. */
  function Record(format: ExportFormat, input: string, output: string): Json {
    JObj([Member(ListKey(format), JArr([Entry(format, "user", input), Entry(format, AnswerRole(format), output)]))])
  }

  /** The text of one exported line. */
  function Line(format: ExportFormat, p: Pair): (r: string)
    ensures |r| >= 2 && r[0] == '{' && r[|r| - 1] == '}' && NoLineBreak(r)
  {
    Stringify(Record(format, p.input, p.output))
  }

  /** One line per pair, in order. */
  function Lines(format: ExportFormat, items: seq<Pair>): (r: seq<string>)
    ensures |r| == |items|
    ensures forall i :: 0 <= i < |items| ==> r[i] == Line(format, items[i])
  {
    if |items| == 0 then [] else [Line(format, items[0])] + Lines(format, items[1..])
  }

  /** `v.key` for a non-null value; `None` is `undefined`. No key read here names a built-in property. */
  function Prop(v: Json, key: string): Option<Json> {
    if v.JObj? then Lookup(v.members, key) else None
  }

  /** `v?.[0]`: the first element of an array, the first character of a string, member "0" of an object. */
  function Index0(v: Json): Option<Json> {
    match v
    case JArr(elems) => if |elems| > 0 then Some(elems[0]) else None
    case JStr(s) => if |s| > 0 then Some(JStr([s[0]])) else None
    case JObj(members) => Lookup(members, "0")
    case _ => None
  }

  /** `v?.key` on a possibly undefined or null value. */
  function OptProp(v: Option<Json>, key: string): Option<Json> {
    if v.None? || v.value.JNull? then None else Prop(v.value, key)
  }

  /** `c.role === role` for a non-null element `c`. */
  predicate RoleIs(c: Json, role: string) {
    Prop(c, "role") == Some(JStr(role))
  }

  /** The outcome of `list.find(c => c.role === role)`, with the position where the scan stopped. */
  datatype Search = Threw(at: nat) | Missing | Hit(entry: Json, at: nat)

  /**
   * `list.find(c => c.role === role)`: the first element whose role is the string `role`;
   * reading `.role` of a `null` element before that throws a TypeError.
   */
  function FindRole(list: seq<Json>, role: string): (r: Search)
    ensures r.Hit? ==> r.at < |list| && list[r.at] == r.entry && RoleIs(r.entry, role)
    ensures r.Threw? ==> r.at < |list| && list[r.at] == JNull
    ensures !r.Missing? ==> forall j :: 0 <= j < r.at ==> list[j] != JNull && !RoleIs(list[j], role)
    ensures r.Missing? ==> forall j :: 0 <= j < |list| ==> list[j] != JNull && !RoleIs(list[j], role)
  {
    if |list| == 0 then Missing
    else if list[0].JNull? then Threw(0)
    else if RoleIs(list[0], role) then Hit(list[0], 0)
    else match FindRole(list[1..], role)
      case Threw(at) => Threw(at + 1)
      case Missing => Missing
      case Hit(entry, at) => Hit(entry, at + 1)
  }

  /** `user?.parts?.[0]?.text` (Gemini) or `user?.content` (OpenAI chat) for a search outcome. */
  function TextOf(format: ExportFormat, found: Search): Option<Json>
    requires !found.Threw?
  {
    var entry := if found.Hit? then Some(found.entry) else None;
    match format
    case Gemini => OptProp(Index0Opt(OptProp(entry, "parts")), "text")
    case OpenAIChat => OptProp(entry, "content")
  }

  /** `v?.[0]` on a possibly undefined or null value. */
  function Index0Opt(v: Option<Json>): Option<Json> {
    if v.None? || v.value.JNull? then None else Index0(v.value)
  }

  /** `x ?? ""` followed by `typeof x === "string" && x`: a non-empty string, or nothing. */
  function NonEmptyText(v: Option<Json>): Option<string> {
    if v.Some? && v.value.JStr? && v.value.s != "" then Some(v.value.s) else None
  }

  /**
   * A parsed record that yields `(input, output)`: an object whose list holds a first user
   * entry and a first answer entry, found without a throw, whose texts are these non-empty strings.
   */
  predicate Yields(format: ExportFormat, obj: Json, input: string, output: string) {
    && obj.JObj?
    && var listed := Prop(obj, ListKey(format));
    && listed.Some? && listed.value.JArr?
    && var user := FindRole(listed.value.elems, "user");
    && var answer := FindRole(listed.value.elems, AnswerRole(format));
    && user.Hit? && answer.Hit?
    && TextOf(format, user) == Some(JStr(input)) && TextOf(format, answer) == Some(JStr(output))
    && input != "" && output != ""
  }

  /**
   * The body of the importer's loop for one parsed record: the `(input, output)` pair it adds,
   * or `None` when the record throws or lacks a non-empty user or answer text.
   */
  function Extract(format: ExportFormat, obj: Json): (r: Option<(string, string)>)
    ensures r.Some? ==> Yields(format, obj, r.value.0, r.value.1)
    ensures forall input, output :: Yields(format, obj, input, output) ==> r == Some((input, output))
  {
    if obj.JNull? then None                 // `null.contents` throws
    else
      var listed := Prop(obj, ListKey(format));
      var list := if listed.Some? && Truthy(listed.value) then listed.value else JArr([]);
      if !list.JArr? then None              // `.find` is not a function
      else
        var user := FindRole(list.elems, "user");
        if user.Threw? then None
        else
          var answer := FindRole(list.elems, AnswerRole(format));
          if answer.Threw? then None
          else
            match (NonEmptyText(TextOf(format, user)), NonEmptyText(TextOf(format, answer)))
            case (Some(input), Some(output)) => Some((input, output))
            case _ => None
  }

  /** The role member of an entry, read back. */
  lemma EntryRole(format: ExportFormat, role: string, text: string)
    ensures RoleIs(Entry(format, role, text), role)
  {
    var ms := Entry(format, role, text).members;
    assert |ms| == 2 && ms[1].key != "role";
    assert ms[..1] == [Member("role", JStr(role))];
    assert Lookup(ms, "role") == Lookup(ms[..1], "role");
  }

  /**
   * Each record holds exactly two entries: first the user entry, whose text (as the importer
   * reads it) is the input, then the answer entry ("model" or "assistant"), whose text is the output.
   */
  lemma RecordShape(format: ExportFormat, input: string, output: string)
    ensures var list := Prop(Record(format, input, output), ListKey(format));
      && list.Some? && list.value.JArr? && |list.value.elems| == 2
      && RoleIs(list.value.elems[0], "user") && RoleIs(list.value.elems[1], AnswerRole(format))
      && TextOf(format, Hit(list.value.elems[0], 0)) == Some(JStr(input))
      && TextOf(format, Hit(list.value.elems[1], 1)) == Some(JStr(output))
  {
    EntryRole(format, "user", input);
    EntryRole(format, AnswerRole(format), output);
  }

  /** The importer reads back the record written for any pair whose input and output are non-empty. */
  lemma ExtractRecord(format: ExportFormat, input: string, output: string)
    requires input != "" && output != ""
    ensures Extract(format, Record(format, input, output)) == Some((input, output))
  {
    var list := [Entry(format, "user", input), Entry(format, AnswerRole(format), output)];
    assert Prop(Record(format, input, output), ListKey(format)) == Some(JArr(list));
    FindEntries(format, input, output);
    RecordShape(format, input, output);
    assert Yields(format, Record(format, input, output), input, output);
  }

  /** Both searches of the importer stop at the entries the exporter wrote. */
  lemma FindEntries(format: ExportFormat, input: string, output: string)
    ensures var list := [Entry(format, "user", input), Entry(format, AnswerRole(format), output)];
      && FindRole(list, "user") == Hit(list[0], 0)
      && FindRole(list, AnswerRole(format)) == Hit(list[1], 1)
  {
    var list := [Entry(format, "user", input), Entry(format, AnswerRole(format), output)];
    EntryRole(format, "user", input);
    EntryRole(format, AnswerRole(format), output);
    assert !RoleIs(list[0], AnswerRole(format));
    assert FindRole(list[1..], AnswerRole(format)) == Hit(list[1], 0);
  }

  /** `text.split(/\r?\n/).map(l => l.trim()).filter(l => l.length > 0)` */
  function ImportLines(text: string): (r: seq<string>)
    ensures forall i :: 0 <= i < |r| ==> r[i] != ""
    ensures forall l :: l in r <==>
      l != "" && exists i :: 0 <= i < |SplitLines(text)| && Trim(SplitLines(text)[i]) == l
  {
    NonBlank(TrimAll(SplitLines(text)))
  }

  function TrimAll(lines: seq<string>): (r: seq<string>)
    ensures |r| == |lines|
    ensures forall i :: 0 <= i < |lines| ==> r[i] == Trim(lines[i])
  {
    seq(|lines|, i requires 0 <= i < |lines| => Trim(lines[i]))
  }

  /** Keeps the non-empty strings, in order. */
  function NonBlank(lines: seq<string>): (r: seq<string>)
    ensures |r| <= |lines|
    ensures forall i :: 0 <= i < |r| ==> r[i] != "" && r[i] in lines
    ensures forall s :: s in r <==> s != "" && s in lines
    ensures (forall i :: 0 <= i < |lines| ==> lines[i] != "") ==> r == lines
  {
    if |lines| == 0 then []
    else (if lines[0] == "" then [] else [lines[0]]) + NonBlank(lines[1..])
  }

  /**
   * The cutter reads a text front to back: the first line, trimmed, comes first unless it is
   * blank, followed by the lines of the rest.
   */
  lemma ImportLinesFirstLine(a: string, b: string)
    requires '\n' !in a
    ensures ImportLines(a + "\n" + b) ==
      (if Trim(DropCarriageReturn(a)) == "" then [] else [Trim(DropCarriageReturn(a))]) + ImportLines(b)
  {
    SplitLinesAtFirstLineFeed(a, b);
    TrimAllCons(DropCarriageReturn(a), SplitLines(b));
    NonBlankCons(Trim(DropCarriageReturn(a)), TrimAll(SplitLines(b)));
  }

  lemma TrimAllCons(line: string, rest: seq<string>)
    ensures TrimAll([line] + rest) == [Trim(line)] + TrimAll(rest)
  {
  }

  lemma NonBlankCons(line: string, rest: seq<string>)
    ensures NonBlank([line] + rest) == (if line == "" then [] else [line]) + NonBlank(rest)
  {
    assert ([line] + rest)[1..] == rest;
  }

  /**
   * The `(input, output)` pairs an import adds for the given lines, in line order: a line
   * counts when it parses and its record yields non-empty texts; every other line is skipped.
   */
  function Accepted(format: ExportFormat, parse: string -> Option<Json>, lines: seq<string>): (r: seq<(string, string)>)
    ensures |r| <= |lines|
    ensures forall i :: 0 <= i < |r| ==> r[i].0 != "" && r[i].1 != ""
  {
    if |lines| == 0 then []
    else
      var obj := parse(lines[0]);
      var first := if obj.Some? then Extract(format, obj.value) else None;
      (if first.Some? then [first.value] else []) + Accepted(format, parse, lines[1..])
  }

  /** A line that parses and yields a pair is imported with its texts, ahead of the rest. */
  lemma AcceptedTakes(format: ExportFormat, parse: string -> Option<Json>, line: string, rest: seq<string>)
    requires parse(line).Some? && Extract(format, parse(line).value).Some?
    ensures Accepted(format, parse, [line] + rest) == [Extract(format, parse(line).value).value] + Accepted(format, parse, rest)
  {
    assert ([line] + rest)[1..] == rest;
  }

  /** Skipping: a line that fails to parse or to yield both texts adds nothing. */
  lemma AcceptedSkips(format: ExportFormat, parse: string -> Option<Json>, line: string, rest: seq<string>)
    requires parse(line).None? || Extract(format, parse(line).value).None?
    ensures Accepted(format, parse, [line] + rest) == Accepted(format, parse, rest)
  {
    assert ([line] + rest)[1..] == rest;
  }

  /** The texts of a sequence of pairs. */
  function Texts(items: seq<Pair>): (r: seq<(string, string)>)
    ensures |r| == |items|
    ensures forall i :: 0 <= i < |items| ==> r[i] == (items[i].input, items[i].output)
  {
    if |items| == 0 then [] else [(items[0].input, items[0].output)] + Texts(items[1..])
  }

  predicate AllNonEmpty(items: seq<Pair>) {
    forall i :: 0 <= i < |items| ==> items[i].input != "" && items[i].output != ""
  }

  /** The importer accepts one exported line, with the texts of its pair. */
  lemma AcceptedLine(format: ExportFormat, parse: string -> Option<Json>, p: Pair, rest: seq<string>)
    requires ReadsBackStringify(parse)
    requires p.input != "" && p.output != ""
    ensures Accepted(format, parse, [Line(format, p)] + rest) == [(p.input, p.output)] + Accepted(format, parse, rest)
  {
    var record := Record(format, p.input, p.output);
    assert parse(Stringify(record)) == Some(record);
    ExtractRecord(format, p.input, p.output);
    assert ([Line(format, p)] + rest)[1..] == rest;
  }

  /** Every exported line is accepted by the importer, with the texts of its pair. */
  lemma {:induction false} AcceptedLines(format: ExportFormat, parse: string -> Option<Json>, items: seq<Pair>)
    requires ReadsBackStringify(parse)
    requires AllNonEmpty(items)
    ensures Accepted(format, parse, Lines(format, items)) == Texts(items)
    decreases |items|
  {
    if |items| > 0 {
      AcceptedLine(format, parse, items[0], Lines(format, items[1..]));
      AcceptedLines(format, parse, items[1..]);
    }
  }

  /** A line the cutter keeps whole: non-empty, without line breaks, not bordered by white space. */
  predicate Solid(line: string) {
    |line| > 0 && NoLineBreak(line) && !IsJsSpace(line[0]) && !IsJsSpace(line[|line| - 1])
  }

  /** Splitting a text of joined solid lines gives back the lines. */
  lemma SplitLinesOfJoinedSolid(lines: seq<string>)
    requires |lines| > 0
    requires forall i :: 0 <= i < |lines| ==> Solid(lines[i])
    ensures SplitAtLineFeeds(JoinLines(lines)) == lines
    ensures SplitLines(JoinLines(lines)) == lines
  {
    forall i | 0 <= i < |lines| ensures '\n' !in lines[i] {
      assert NoLineBreak(lines[i]);
    }
    SplitJoin(lines);
    var cut := SplitLines(JoinLines(lines));
    forall i | 0 <= i < |lines| ensures cut[i] == lines[i] {
      assert lines[i][|lines[i]| - 1] != '\r';
    }
  }

  /** Trimming leaves solid lines as they are. */
  lemma TrimAllSolid(lines: seq<string>)
    requires forall i :: 0 <= i < |lines| ==> Solid(lines[i])
    ensures TrimAll(lines) == lines
  {
    forall i | 0 <= i < |lines| ensures Trim(lines[i]) == lines[i] {
      TrimOfTrimmed(lines[i]);
    }
  }

  /** Cutting a text of joined solid lines recovers the lines themselves. */
  lemma ImportLinesOfJoinedSolid(lines: seq<string>)
    requires forall i :: 0 <= i < |lines| ==> Solid(lines[i])
    ensures ImportLines(JoinLines(lines)) == lines
  {
    if |lines| == 0 {
      ImportLinesOfEmpty();
    } else {
      SplitLinesOfJoinedSolid(lines);
      TrimAllSolid(lines);
      assert forall i :: 0 <= i < |lines| ==> lines[i] != "" by {
        forall i | 0 <= i < |lines| ensures lines[i] != "" {
          assert Solid(lines[i]);
        }
      }
      assert NonBlank(lines) == lines;
    }
  }

  /** An empty text is one blank line, which is dropped. */
  lemma ImportLinesOfEmpty()
    ensures ImportLines("") == []
  {
    assert SplitAtLineFeeds("") == [""];
    assert TrimAll(SplitLines("")) == [""];
    assert NonBlank([""]) == [] + NonBlank([]);
  }

  /** Every exported line is solid: it starts with `{` and ends with `}`, with no line break. */
  lemma LinesSolid(format: ExportFormat, items: seq<Pair>)
    ensures forall i :: 0 <= i < |Lines(format, items)| ==> Solid(Lines(format, items)[i])
  {
    var lines := Lines(format, items);
    forall i | 0 <= i < |lines| ensures Solid(lines[i]) {
      LineSolid(format, items[i]);
    }
  }

  lemma LineSolid(format: ExportFormat, p: Pair)
    ensures Solid(Line(format, p))
  {
    var r := Line(format, p);
    assert r[0] == '{' && r[|r| - 1] == '}';
  }

  /** Cutting a text of joined exported lines recovers the lines themselves. */
  lemma ImportLinesOfJoined(format: ExportFormat, items: seq<Pair>)
    ensures ImportLines(JoinLines(Lines(format, items))) == Lines(format, items)
  {
    LinesSolid(format, items);
    ImportLinesOfJoinedSolid(Lines(format, items));
  }
}

=== FILE: migration.dfy ===
/** Creation of an empty document and the upgrade of legacy (v1) documents to the v2 shape. */
module Migration {
  import opened Wrappers
  import opened Types

  /** The schema version this layer writes. */
  const CurrentVersion := 2

  /** A document that must be upgraded: no version, or a version below 2 (`!db.version || db.version < 2`). */
  predicate IsLegacy(doc: Document) {
    doc.version.None? || doc.version.value < CurrentVersion
  }

  /** The v2 invariant: a version of at least 2 and a `datasets` array. */
  predicate IsCurrent(doc: Document) {
    !IsLegacy(doc) && doc.datasets.Some?
  }

  /** `a || b` on timestamps: an absent or empty stamp falls back to `b`. */
  function OrElse(a: string, b: string): string {
    if a != "" then a else b
  }

  /** A fresh document: version 2, no datasets, both stamps at `now`. */
  function CreateEmptyDatabase(now: string): (doc: Document)
    ensures IsCurrent(doc)
    ensures DatasetsOf(doc) == []
    ensures doc.version == Some(CurrentVersion)
    ensures doc.createdAt == now && doc.updatedAt == now && doc.items.None?
  {
    Document(Some(CurrentVersion), None, Some([]), now, now)
  }

  /**
   * `migrateDatabase`. A legacy document becomes a v2 document with one dataset "Default"
   * (id `uuid`) holding the legacy items in order; a current one is returned as it is,
   * except that a missing or non-array `datasets` becomes the empty list.
   */
  function Migrate(raw: Document, now: string, uuid: string): (doc: Document)
    ensures IsCurrent(doc)
    ensures IsLegacy(raw) ==>
      && doc.version == Some(CurrentVersion)
      && doc.items.None?
      && |DatasetsOf(doc)| == 1
      && DatasetsOf(doc)[0].id == uuid
      && DatasetsOf(doc)[0].name == "Default"
      && DatasetsOf(doc)[0].items == raw.items.GetOr([])
      && DatasetsOf(doc)[0].createdAt == (if raw.createdAt != "" then raw.createdAt else now)
      && DatasetsOf(doc)[0].updatedAt == (if raw.updatedAt != "" then raw.updatedAt else now)
      && doc.createdAt == (if raw.createdAt != "" then raw.createdAt else now)
      && doc.updatedAt == now
    ensures !IsLegacy(raw) ==>
      && doc.version == raw.version
      && doc.items == raw.items
      && doc.createdAt == raw.createdAt
      && doc.updatedAt == raw.updatedAt
      && (raw.datasets.Some? ==> doc == raw)
      && (raw.datasets.None? ==> doc.datasets == Some([]))
  {
    if IsLegacy(raw) then
      var dataset := Dataset(
        uuid, "Default", raw.items.GetOr([]),
        OrElse(raw.createdAt, now), OrElse(raw.updatedAt, now));
      Document(Some(CurrentVersion), None, Some([dataset]), OrElse(raw.createdAt, now), now)
    else if raw.datasets.None? then
      raw.(datasets := Some([]))
    else
      raw
  }

  /** Migrating a current document changes nothing. */
  lemma MigrateCurrentIsIdentity(doc: Document, now: string, uuid: string)
    requires IsCurrent(doc)
    ensures Migrate(doc, now, uuid) == doc
  {
  }

  /** Migration is idempotent: a second pass, with any clock and id, keeps the first result. */
  lemma MigrateIdempotent(raw: Document, now: string, uuid: string, now': string, uuid': string)
    ensures Migrate(Migrate(raw, now, uuid), now', uuid') == Migrate(raw, now, uuid)
  {
    MigrateCurrentIsIdentity(Migrate(raw, now, uuid), now', uuid');
  }

  /** Every pair of a legacy document survives migration, in order, in the "Default" dataset. */
  lemma MigrateKeepsLegacyPairs(raw: Document, now: string, uuid: string)
    requires IsLegacy(raw) && raw.items.Some?
    ensures AllPairs(DatasetsOf(Migrate(raw, now, uuid))) == raw.items.value
  {
    var ds := DatasetsOf(Migrate(raw, now, uuid));
    assert AllPairs(ds[1..]) == [];
    assert raw.items.value + [] == raw.items.value;
  }
}

=== FILE: preferences.dfy ===
/**
 * User preferences kept as one JSON record in the browser's local storage, read back merged
 * over fixed defaults. The storage item is the stored string, if any; `JSON.parse` is a
 * parameter, and a write may fail, in which case it is silently dropped.
 */
module Preferences {
  import opened Wrappers
  import opened Json
  import opened Types

  /** A complete set of preferences. */
  datatype Prefs = Prefs(defaultExportFormat: ExportFormat, showWelcomeGuide: bool, rememberFolder: bool, defaultPageSize: int)

  /** Some of the preference keys, as a stored record or an update carries them. */
  datatype PartialPrefs = PartialPrefs(
    defaultExportFormat: Option<ExportFormat>,
    showWelcomeGuide: Option<bool>,
    rememberFolder: Option<bool>,
    defaultPageSize: Option<int>)

  /** No window (server-side rendering), or local storage with its item and whether writes succeed. */
  datatype Store = NoWindow | Local(item: Option<string>, writable: bool)

  const StorageKey := "datagreg-preferences"

  /** OpenAI chat export, the welcome guide shown, the folder not remembered, 20 rows a page. */
  function Defaults(): (r: Prefs)
    ensures r.defaultExportFormat == OpenAIChat && r.showWelcomeGuide && !r.rememberFolder
    ensures r.defaultPageSize == 20
  {
    Prefs(OpenAIChat, true, false, 20)
  }

  /** `{ ...base, ...p }`: every key `p` carries overrides, every other key keeps its value in `base`. */
  function Merge(base: Prefs, p: PartialPrefs): (r: Prefs)
    ensures p.defaultExportFormat.Some? ==> r.defaultExportFormat == p.defaultExportFormat.value
    ensures p.defaultExportFormat.None? ==> r.defaultExportFormat == base.defaultExportFormat
    ensures p.showWelcomeGuide.Some? ==> r.showWelcomeGuide == p.showWelcomeGuide.value
    ensures p.showWelcomeGuide.None? ==> r.showWelcomeGuide == base.showWelcomeGuide
    ensures p.rememberFolder.Some? ==> r.rememberFolder == p.rememberFolder.value
    ensures p.rememberFolder.None? ==> r.rememberFolder == base.rememberFolder
    ensures p.defaultPageSize.Some? ==> r.defaultPageSize == p.defaultPageSize.value
    ensures p.defaultPageSize.None? ==> r.defaultPageSize == base.defaultPageSize
  {
    Prefs(
      p.defaultExportFormat.GetOr(base.defaultExportFormat),
      p.showWelcomeGuide.GetOr(base.showWelcomeGuide),
      p.rememberFolder.GetOr(base.rememberFolder),
      p.defaultPageSize.GetOr(base.defaultPageSize))
  }

  /** Every key of a complete record. */
  function Full(p: Prefs): PartialPrefs {
    PartialPrefs(Some(p.defaultExportFormat), Some(p.showWelcomeGuide), Some(p.rememberFolder), Some(p.defaultPageSize))
  }

  /** Merging a complete record over anything yields that record. */
  lemma MergeFull(base: Prefs, p: Prefs)
    ensures Merge(base, Full(p)) == p
  {
  }

  /** The string form of an export format. */
  function FormatName(f: ExportFormat): (r: string)
    ensures r == "gemini" || r == "openai_chat"
  {
    match f
    case Gemini => "gemini"
    case OpenAIChat => "openai_chat"
  }

  function FormatOf(v: Option<Json>): (r: Option<ExportFormat>)
    ensures r.Some? ==> v == Some(JStr(FormatName(r.value)))
  {
    if v == Some(JStr("gemini")) then Some(Gemini)
    else if v == Some(JStr("openai_chat")) then Some(OpenAIChat)
    else None
  }

  function BoolOf(v: Option<Json>): (r: Option<bool>)
    ensures r.Some? <==> v.Some? && v.value.JBool?
    ensures r.Some? ==> v.value.b == r.value
  {
    if v.Some? && v.value.JBool? then Some(v.value.b) else None
  }

  function IntOf(v: Option<Json>): (r: Option<int>)
    ensures r.Some? <==> v.Some? && v.value.JNum?
    ensures r.Some? ==> v.value.n == r.value
  {
    if v.Some? && v.value.JNum? then Some(v.value.n) else None
  }

  /** The record `setPreferences` writes, keys in the order of the defaults. */
  function Encode(p: Prefs): (r: Json)
    ensures r.JObj? && |r.members| == 4
  {
    JObj([
      Member("defaultExportFormat", JStr(FormatName(p.defaultExportFormat))),
      Member("showWelcomeGuide", JBool(p.showWelcomeGuide)),
      Member("rememberFolder", JBool(p.rememberFolder)),
      Member("defaultPageSize", JNum(p.defaultPageSize))])
  }

  /** The preference keys a parsed value carries with the type the record declares. */
  function Decode(v: Json): (r: PartialPrefs)
    ensures !v.JObj? ==> r == PartialPrefs(None, None, None, None)
  {
    if !v.JObj? then PartialPrefs(None, None, None, None)
    else
      PartialPrefs(
        FormatOf(Lookup(v.members, "defaultExportFormat")),
        BoolOf(Lookup(v.members, "showWelcomeGuide")),
        BoolOf(Lookup(v.members, "rememberFolder")),
        IntOf(Lookup(v.members, "defaultPageSize")))
  }

  /** Reading back a written record recovers every key. */
  lemma DecodeEncode(p: Prefs)
    ensures Decode(Encode(p)) == Full(p)
  {
    var ms := Encode(p).members;
    var m3, m2, m1 := ms[..3], ms[..2], ms[..1];
    assert ms[..|ms| - 1] == m3 && m3[..|m3| - 1] == m2 && m2[..|m2| - 1] == m1;
    assert m3[|m3| - 1] == ms[2] && m2[|m2| - 1] == ms[1] && m1[|m1| - 1] == ms[0];
    assert Lookup(m1, "defaultExportFormat") == Some(ms[0].value);
    assert Lookup(m2, "showWelcomeGuide") == Some(ms[1].value);
    assert Lookup(m2, "defaultExportFormat") == Lookup(m1, "defaultExportFormat");
    assert Lookup(m3, "rememberFolder") == Some(ms[2].value);
    assert Lookup(m3, "showWelcomeGuide") == Lookup(m2, "showWelcomeGuide");
    assert Lookup(m3, "defaultExportFormat") == Lookup(m2, "defaultExportFormat");
    assert Lookup(ms, "defaultPageSize") == Some(ms[3].value);
    assert Lookup(ms, "rememberFolder") == Lookup(m3, "rememberFolder");
    assert Lookup(ms, "showWelcomeGuide") == Lookup(m3, "showWelcomeGuide");
    assert Lookup(ms, "defaultExportFormat") == Lookup(m3, "defaultExportFormat");
  }

  /**
   * `getPreferences`: the defaults without a window, without a stored item, with an empty item
   * or with one that does not parse; otherwise the stored keys merged over the defaults.
   */
  function GetPreferences(store: Store, parse: string -> Option<Json>): (r: Prefs)
    ensures store.NoWindow? || store.item.None? ==> r == Defaults()
    ensures store.Local? && store.item.Some? && (store.item.value == "" || parse(store.item.value).None?) ==> r == Defaults()
    ensures store.Local? && store.item.Some? && store.item.value != "" && parse(store.item.value).Some? ==>
      r == Merge(Defaults(), Decode(parse(store.item.value).value))
  {
    match store
    case NoWindow => Defaults()
    case Local(item, _) =>
      if item.None? || item.value == "" then Defaults()
      else
        match parse(item.value)
        case None => Defaults()
        case Some(v) => Merge(Defaults(), Decode(v))
  }

  /**
   * `setPreferences`: writes the current preferences with `p` merged over them; does nothing
   * without a window, and a write that fails leaves the store as it was.
   */
  function SetPreferences(store: Store, p: PartialPrefs, parse: string -> Option<Json>): (r: Store)
    ensures store.NoWindow? ==> r == store
    ensures store.Local? && !store.writable ==> r == store
    ensures store.Local? && store.writable ==>
      r == Local(Some(Stringify(Encode(Merge(GetPreferences(store, parse), p)))), true)
  {
    match store
    case NoWindow => store
    case Local(_, writable) =>
      if !writable then store
      else Local(Some(Stringify(Encode(Merge(GetPreferences(store, parse), p)))), true)
  }

  /**
   * Reading after a successful write gives the previous preferences with the update merged
   * over them: updated keys take the new values and every other key keeps its value.
   */
  lemma GetAfterSet(store: Store, p: PartialPrefs, parse: string -> Option<Json>)
    requires ReadsBackStringify(parse)
    requires store.Local? && store.writable
    ensures GetPreferences(SetPreferences(store, p, parse), parse) == Merge(GetPreferences(store, parse), p)
  {
    var updated := Merge(GetPreferences(store, parse), p);
    var text := Stringify(Encode(updated));
    assert parse(text) == Some(Encode(updated));
    DecodeEncode(updated);
    MergeFull(Defaults(), updated);
  }

  /** The stored default export format; the default one when nothing is stored. */
  function GetDefaultExportFormat(store: Store, parse: string -> Option<Json>): (r: ExportFormat)
    ensures store.NoWindow? || store.item.None? ==> r == Defaults().defaultExportFormat
  {
    GetPreferences(store, parse).defaultExportFormat
  }

  /** Stores the default export format, keeping the other preferences; nothing changes without a window or when the write fails. */
  function SetDefaultExportFormat(store: Store, format: ExportFormat, parse: string -> Option<Json>): (r: Store)
    ensures store.NoWindow? || !store.writable ==> r == store
    ensures store.Local? && store.writable ==> r.Local? && r.writable && r.item.Some?
  {
    SetPreferences(store, PartialPrefs(Some(format), None, None, None), parse)
  }

  /** Whether to show the welcome guide; the default when nothing is stored. */
  function GetShouldShowWelcomeGuide(store: Store, parse: string -> Option<Json>): (r: bool)
    ensures store.NoWindow? || store.item.None? ==> r == Defaults().showWelcomeGuide
  {
    GetPreferences(store, parse).showWelcomeGuide
  }

  /** Stores whether to show the welcome guide, keeping the other preferences; nothing changes without a window or when the write fails. */
  function SetShouldShowWelcomeGuide(store: Store, show: bool, parse: string -> Option<Json>): (r: Store)
    ensures store.NoWindow? || !store.writable ==> r == store
    ensures store.Local? && store.writable ==> r.Local? && r.writable && r.item.Some?
  {
    SetPreferences(store, PartialPrefs(None, Some(show), None, None), parse)
  }

  /** Whether to remember the folder; the default when nothing is stored. */
  function GetRememberFolder(store: Store, parse: string -> Option<Json>): (r: bool)
    ensures store.NoWindow? || store.item.None? ==> r == Defaults().rememberFolder
  {
    GetPreferences(store, parse).rememberFolder
  }

  /** Stores whether to remember the folder, keeping the other preferences; nothing changes without a window or when the write fails. */
  function SetRememberFolder(store: Store, remember: bool, parse: string -> Option<Json>): (r: Store)
    ensures store.NoWindow? || !store.writable ==> r == store
    ensures store.Local? && store.writable ==> r.Local? && r.writable && r.item.Some?
  {
    SetPreferences(store, PartialPrefs(None, None, Some(remember), None), parse)
  }

  /** The stored page size; the default when nothing is stored. */
  function GetDefaultPageSize(store: Store, parse: string -> Option<Json>): (r: int)
    ensures store.NoWindow? || store.item.None? ==> r == Defaults().defaultPageSize
  {
    GetPreferences(store, parse).defaultPageSize
  }

  /** Stores the page size, keeping the other preferences; nothing changes without a window or when the write fails. */
  function SetDefaultPageSize(store: Store, pageSize: int, parse: string -> Option<Json>): (r: Store)
    ensures store.NoWindow? || !store.writable ==> r == store
    ensures store.Local? && store.writable ==> r.Local? && r.writable && r.item.Some?
  {
    SetPreferences(store, PartialPrefs(None, None, None, Some(pageSize)), parse)
  }

  /** Setting the export format is read back, and the other three preferences are unchanged. */
  lemma ExportFormatRoundTrip(store: Store, format: ExportFormat, parse: string -> Option<Json>)
    requires ReadsBackStringify(parse)
    requires store.Local? && store.writable
    ensures var after := SetDefaultExportFormat(store, format, parse);
      && GetDefaultExportFormat(after, parse) == format
      && GetShouldShowWelcomeGuide(after, parse) == GetShouldShowWelcomeGuide(store, parse)
      && GetRememberFolder(after, parse) == GetRememberFolder(store, parse)
      && GetDefaultPageSize(after, parse) == GetDefaultPageSize(store, parse)
  {
    GetAfterSet(store, PartialPrefs(Some(format), None, None, None), parse);
  }

  /** Setting whether to show the welcome guide is read back; the other preferences are unchanged. */
  lemma WelcomeGuideRoundTrip(store: Store, show: bool, parse: string -> Option<Json>)
    requires ReadsBackStringify(parse)
    requires store.Local? && store.writable
    ensures var after := SetShouldShowWelcomeGuide(store, show, parse);
      && GetShouldShowWelcomeGuide(after, parse) == show
      && GetDefaultExportFormat(after, parse) == GetDefaultExportFormat(store, parse)
      && GetRememberFolder(after, parse) == GetRememberFolder(store, parse)
      && GetDefaultPageSize(after, parse) == GetDefaultPageSize(store, parse)
  {
    GetAfterSet(store, PartialPrefs(None, Some(show), None, None), parse);
  }

  /** Setting whether to remember the folder is read back; the other preferences are unchanged. */
  lemma RememberFolderRoundTrip(store: Store, remember: bool, parse: string -> Option<Json>)
    requires ReadsBackStringify(parse)
    requires store.Local? && store.writable
    ensures var after := SetRememberFolder(store, remember, parse);
      && GetRememberFolder(after, parse) == remember
      && GetDefaultExportFormat(after, parse) == GetDefaultExportFormat(store, parse)
      && GetShouldShowWelcomeGuide(after, parse) == GetShouldShowWelcomeGuide(store, parse)
      && GetDefaultPageSize(after, parse) == GetDefaultPageSize(store, parse)
  {
    GetAfterSet(store, PartialPrefs(None, None, Some(remember), None), parse);
  }

  /** Setting the page size is read back; the other preferences are unchanged. */
  lemma PageSizeRoundTrip(store: Store, pageSize: int, parse: string -> Option<Json>)
    requires ReadsBackStringify(parse)
    requires store.Local? && store.writable
    ensures var after := SetDefaultPageSize(store, pageSize, parse);
      && GetDefaultPageSize(after, parse) == pageSize
      && GetDefaultExportFormat(after, parse) == GetDefaultExportFormat(store, parse)
      && GetShouldShowWelcomeGuide(after, parse) == GetShouldShowWelcomeGuide(store, parse)
      && GetRememberFolder(after, parse) == GetRememberFolder(store, parse)
  {
    GetAfterSet(store, PartialPrefs(None, None, None, Some(pageSize)), parse);
  }

  /** A store nothing was ever written to reads as the defaults, whatever the parser. */
  lemma FreshStoreReadsDefaults(writable: bool, parse: string -> Option<Json>)
    ensures GetPreferences(Local(None, writable), parse) == Defaults()
    ensures GetPreferences(NoWindow, parse) == Defaults()
  {
  }
}

=== FILE: repository.dfy ===
/**
 * The dataset and pair operations of the client database, stripped of the final save: each
 * maps the in-memory document to the document afterwards and the value it returns, or to the
 * error it throws (in which case nothing has been changed).
 */
module Repository {
  import opened Wrappers
  import opened Types

  /** A `datasetId` argument that selects a dataset: present and not "" (JavaScript truthiness). */
  predicate Given(datasetId: Option<string>) {
    datasetId.Some? && datasetId.value != ""
  }

  /** Everything outside the dataset list is the same in both documents. */
  predicate SameHeader(a: Document, b: Document) {
    a.version == b.version && a.items == b.items && a.createdAt == b.createdAt && a.updatedAt == b.updatedAt
  }

  /** `after` is `before` with at most the element at `i` replaced. */
  predicate OnlyAt<T(==)>(before: seq<T>, after: seq<T>, i: nat) {
    |after| == |before| && i < |before| && forall j :: 0 <= j < |before| && j != i ==> after[j] == before[j]
  }

  /** The fields a caller may pass to `updateDataset`; `None` leaves a field as it is. */
  datatype DatasetPatch = DatasetPatch(
    id: Option<string>, name: Option<string>, items: Option<seq<Pair>>, createdAt: Option<string>)

  /** The fields a caller may pass to `updatePair`; `None` leaves a field as it is. */
  datatype PairPatch = PairPatch(
    id: Option<string>, input: Option<string>, output: Option<string>,
    metadata: Option<Option<seq<Json.Member>>>, createdAt: Option<string>)

  /** `Object.assign(dataset, updates, { updatedAt: now })` */
  function PatchDataset(d: Dataset, p: DatasetPatch, now: string): Dataset {
    Dataset(p.id.GetOr(d.id), p.name.GetOr(d.name), p.items.GetOr(d.items), p.createdAt.GetOr(d.createdAt), now)
  }

  /** `Object.assign(pair, updates, { updatedAt: now })` */
  function PatchPair(q: Pair, p: PairPatch, now: string): Pair {
    Pair(p.id.GetOr(q.id), p.input.GetOr(q.input), p.output.GetOr(q.output),
         p.metadata.GetOr(q.metadata), p.createdAt.GetOr(q.createdAt), now)
  }

  /** `listDatasets`: the dataset list, empty when the document has none. */
  function ListDatasets(doc: Document): (r: seq<Dataset>)
    ensures doc.datasets.None? ==> r == []
    ensures doc.datasets.Some? ==> r == doc.datasets.value
  {
    DatasetsOf(doc)
  }

  /** `createDataset`: appends a new, empty dataset and saves. */
  function CreateDataset(doc: Document, name: string, now: string, uuid: string): (r: Step<Dataset>)
    ensures r.persist && SameHeader(doc, r.doc)
    ensures r.value.id == uuid && r.value.name == name && r.value.items == []
    ensures r.value.createdAt == now && r.value.updatedAt == now
    ensures r.doc.datasets == Some(DatasetsOf(doc) + [r.value])
  {
    var dataset := Dataset(uuid, name, [], now, now);
    Step(doc.(datasets := Some(DatasetsOf(doc) + [dataset])), dataset, true)
  }

  /**
   * `updateDataset`: overwrites the given fields of the first dataset with `id` and stamps it;
   * fails with "Dataset not found" when there is none.
   */
  function UpdateDataset(doc: Document, id: string, patch: DatasetPatch, now: string): (r: Result<Step<Dataset>, Error>)
    ensures r.Err? <==> !HasId(DatasetsOf(doc), id)
    ensures r.Err? ==> r.error == DatasetNotFound
    ensures r.Ok? ==>
      var ds := DatasetsOf(doc);
      var i := FirstDataset(ds, id);
      var d := r.value.value;
      && r.value.persist && SameHeader(doc, r.value.doc) && r.value.doc.datasets.Some?
      && OnlyAt(ds, DatasetsOf(r.value.doc), i) && DatasetsOf(r.value.doc)[i] == d
      && d.id == patch.id.GetOr(ds[i].id) && d.name == patch.name.GetOr(ds[i].name)
      && d.items == patch.items.GetOr(ds[i].items) && d.createdAt == patch.createdAt.GetOr(ds[i].createdAt)
      && d.updatedAt == now
  {
    var ds := DatasetsOf(doc);
    if !HasId(ds, id) then Err(DatasetNotFound)
    else
      var i := FirstDataset(ds, id);
      var d := PatchDataset(ds[i], patch, now);
      Ok(Step(doc.(datasets := Some(ds[i := d])), d, true))
  }

  /**
   * `deleteDataset`: removes the first dataset with `id` and saves; fails with "Dataset not
   * found" when there is none. A document without a dataset list is left alone, unsaved.
   */
  function DeleteDataset(doc: Document, id: string): (r: Result<Step<()>, Error>)
    ensures r.Err? <==> doc.datasets.Some? && !HasId(doc.datasets.value, id)
    ensures r.Err? ==> r.error == DatasetNotFound
    ensures r.Ok? && doc.datasets.None? ==> r.value.doc == doc && !r.value.persist
    ensures r.Ok? && doc.datasets.Some? ==>
      var ds := doc.datasets.value;
      && r.value.persist && SameHeader(doc, r.value.doc)
      && r.value.doc.datasets == Some(RemoveAt(ds, FirstDataset(ds, id)))
  {
    if doc.datasets.None? then Ok(Step(doc, (), false))
    else
      var ds := doc.datasets.value;
      if !HasId(ds, id) then Err(DatasetNotFound)
      else Ok(Step(doc.(datasets := Some(RemoveAt(ds, FirstDataset(ds, id)))), (), true))
  }

  /**
   * `listPairs`: with a dataset id, the items of the first dataset with that id (none if there
   * is no such dataset); without one, every pair in dataset order then item order.
   */
  function ListPairs(doc: Document, datasetId: Option<string>): (r: seq<Pair>)
    ensures !Given(datasetId) ==> r == AllPairs(DatasetsOf(doc))
    ensures Given(datasetId) && !HasId(DatasetsOf(doc), datasetId.value) ==> r == []
    ensures Given(datasetId) && HasId(DatasetsOf(doc), datasetId.value) ==>
      r == DatasetsOf(doc)[FirstDataset(DatasetsOf(doc), datasetId.value)].items
  {
    var ds := DatasetsOf(doc);
    if !Given(datasetId) then AllPairs(ds)
    else if HasId(ds, datasetId.value) then ds[FirstDataset(ds, datasetId.value)].items
    else []
  }

  /** A pair is listed across all datasets exactly when some dataset holds it. */
  lemma {:induction false} AllPairsMembers(ds: seq<Dataset>, p: Pair)
    ensures p in AllPairs(ds) <==> exists i :: 0 <= i < |ds| && p in ds[i].items
  {
    if |ds| > 0 {
      AllPairsMembers(ds[1..], p);
      if p in AllPairs(ds[1..]) {
        var i :| 0 <= i < |ds[1..]| && p in ds[1..][i].items;
        assert p in ds[i + 1].items;
      }
      if exists i :: 0 <= i < |ds| && p in ds[i].items {
        var i :| 0 <= i < |ds| && p in ds[i].items;
        if i > 0 {
          assert p in ds[1..][i - 1].items;
        }
      }
    }
  }

  /** The dataset `addPair` writes to: the first with `datasetId`, or the first of all when none is given. */
  function AddTarget(ds: seq<Dataset>, datasetId: Option<string>): (r: Option<nat>)
    ensures r.Some? ==> r.value < |ds|
    ensures Given(datasetId) ==> (r.Some? <==> HasId(ds, datasetId.value))
    ensures Given(datasetId) && r.Some? ==> r.value == FirstDataset(ds, datasetId.value)
    ensures !Given(datasetId) ==> (r.Some? <==> |ds| > 0)
    ensures !Given(datasetId) && r.Some? ==> r.value == 0
  {
    if Given(datasetId) then
      if HasId(ds, datasetId.value) then Some(FirstDataset(ds, datasetId.value)) else None
    else if |ds| > 0 then Some(0) else None
  }

  /**
   * `addPair`: appends a new pair to the end of the target dataset, stamps that dataset and
   * saves; fails with "No dataset available" when there is no target.
   */
  function AddPair(doc: Document, input: string, output: string, metadata: Option<seq<Json.Member>>,
                   datasetId: Option<string>, now: string, uuid: string): (r: Result<Step<Pair>, Error>)
    ensures var ds := DatasetsOf(doc);
      r.Err? <==> (if Given(datasetId) then !HasId(ds, datasetId.value) else |ds| == 0)
    ensures r.Err? ==> r.error == NoDatasetAvailable
    ensures r.Ok? ==> r.value.value == Pair(uuid, input, output, metadata, now, now)
    ensures r.Ok? ==>
      var ds := DatasetsOf(doc);
      var i := if Given(datasetId) then FirstDataset(ds, datasetId.value) else 0;
      var ds' := DatasetsOf(r.value.doc);
      && r.value.persist && SameHeader(doc, r.value.doc) && r.value.doc.datasets.Some?
      && OnlyAt(ds, ds', i)
      && ds'[i].items == ds[i].items + [r.value.value]
      && ds'[i] == ds[i].(items := ds'[i].items, updatedAt := now)
  {
    var ds := DatasetsOf(doc);
    match AddTarget(ds, datasetId)
    case None => Err(NoDatasetAvailable)
    case Some(i) =>
      var pair := Pair(uuid, input, output, metadata, now, now);
      var target := ds[i].(items := ds[i].items + [pair], updatedAt := now);
      Ok(Step(doc.(datasets := Some(ds[i := target])), pair, true))
  }

  /**
   * Creating a dataset under a fresh id and adding a pair to it by that id leaves exactly that
   * pair listed under the id, whatever datasets the document held before.
   */
  lemma CreateThenAddThenList(doc: Document, name: string, uuid: string, input: string, output: string,
                              metadata: Option<seq<Json.Member>>, now: string, pairId: string)
    requires uuid != "" && !HasId(DatasetsOf(doc), uuid)
    ensures var created := CreateDataset(doc, name, now, uuid);
      var added := AddPair(created.doc, input, output, metadata, Some(uuid), now, pairId);
      && added.Ok?
      && ListPairs(added.value.doc, Some(uuid)) == [added.value.value]
      && ListPairs(added.value.doc, Some(uuid))[0].id == pairId
  {
    var ds := DatasetsOf(doc);
    var created := CreateDataset(doc, name, now, uuid);
    var ds1 := DatasetsOf(created.doc);
    assert ds1[|ds|].id == uuid;
    assert FirstDataset(ds1, uuid) == |ds|;
    var added := AddPair(created.doc, input, output, metadata, Some(uuid), now, pairId);
    var ds2 := DatasetsOf(added.value.doc);
    assert ds2[|ds|].id == uuid;
    assert forall j :: 0 <= j < |ds| ==> ds2[j] == ds[j];
    assert FirstDataset(ds2, uuid) == |ds|;
  }

  /** Some dataset holds a pair with `id`. */
  predicate Holds(ds: seq<Dataset>, id: string) {
    exists i :: 0 <= i < |ds| && HasPair(ds[i].items, id)
  }

  /** The first dataset, in order, holding a pair with `id`: where the unscoped search stops. */
  function FirstHolding(ds: seq<Dataset>, id: string): (r: nat)
    requires Holds(ds, id)
    ensures r < |ds| && HasPair(ds[r].items, id)
    ensures forall j :: 0 <= j < r ==> !HasPair(ds[j].items, id)
  {
    if HasPair(ds[0].items, id) then 0
    else
      assert Holds(ds[1..], id) by {
        var i :| 0 <= i < |ds| && HasPair(ds[i].items, id);
        assert ds[1..][i - 1] == ds[i];
      }
      FirstHolding(ds[1..], id) + 1
  }

  /** A pair's place: the index of its dataset and its index in that dataset's items. */
  datatype Place = Place(dataset: nat, pair: nat)

  /**
   * Where `updatePair` and `deletePair` act. With a dataset id: the first pair with `id` in the
   * first dataset with that dataset id. Without: the first pair with `id` in the first dataset,
   * in order, that holds one. `None` when there is no such pair in scope.
   */
  function Locate(ds: seq<Dataset>, id: string, datasetId: Option<string>): (r: Option<Place>)
    ensures Given(datasetId) ==>
      (r.Some? <==> HasId(ds, datasetId.value) && HasPair(ds[FirstDataset(ds, datasetId.value)].items, id))
    ensures Given(datasetId) && r.Some? ==> r.value.dataset == FirstDataset(ds, datasetId.value)
    ensures !Given(datasetId) ==> (r.Some? <==> Holds(ds, id))
    ensures !Given(datasetId) && r.Some? ==> r.value.dataset == FirstHolding(ds, id)
    ensures r.Some? ==>
      && r.value.dataset < |ds|
      && HasPair(ds[r.value.dataset].items, id)
      && r.value.pair == FirstPair(ds[r.value.dataset].items, id)
  {
    if Given(datasetId) then
      if HasId(ds, datasetId.value) && HasPair(ds[FirstDataset(ds, datasetId.value)].items, id) then
        var i := FirstDataset(ds, datasetId.value);
        Some(Place(i, FirstPair(ds[i].items, id)))
      else None
    else if Holds(ds, id) then
      var i := FirstHolding(ds, id);
      Some(Place(i, FirstPair(ds[i].items, id)))
    else None
  }

  /**
   * `updatePair`: overwrites the given fields of the located pair, stamps it and its dataset,
   * and saves; fails with "Pair not found" when no pair is in scope.
   */
  function UpdatePair(doc: Document, id: string, patch: PairPatch, datasetId: Option<string>, now: string): (r: Result<Step<Pair>, Error>)
    ensures r.Err? <==> Locate(DatasetsOf(doc), id, datasetId).None?
    ensures r.Err? ==> r.error == PairNotFound
    ensures r.Ok? ==>
      var ds := DatasetsOf(doc);
      var at := Locate(ds, id, datasetId).value;
      var was := ds[at.dataset].items[at.pair];
      var p := r.value.value;
      var ds' := DatasetsOf(r.value.doc);
      && r.value.persist && SameHeader(doc, r.value.doc) && r.value.doc.datasets.Some?
      && OnlyAt(ds, ds', at.dataset)
      && ds'[at.dataset] == ds[at.dataset].(items := ds[at.dataset].items[at.pair := p], updatedAt := now)
      && p.id == patch.id.GetOr(was.id) && p.input == patch.input.GetOr(was.input)
      && p.output == patch.output.GetOr(was.output) && p.metadata == patch.metadata.GetOr(was.metadata)
      && p.createdAt == patch.createdAt.GetOr(was.createdAt) && p.updatedAt == now
  {
    var ds := DatasetsOf(doc);
    match Locate(ds, id, datasetId)
    case None => Err(PairNotFound)
    case Some(at) =>
      var d := ds[at.dataset];
      var p := PatchPair(d.items[at.pair], patch, now);
      var d' := d.(items := d.items[at.pair := p], updatedAt := now);
      Ok(Step(doc.(datasets := Some(ds[at.dataset := d'])), p, true))
  }

  /**
   * `deletePair`: removes the located pair from its dataset, stamps the dataset and saves;
   * fails with "Pair not found" when no pair is in scope.
   */
  function DeletePair(doc: Document, id: string, datasetId: Option<string>, now: string): (r: Result<Step<()>, Error>)
    ensures r.Err? <==> Locate(DatasetsOf(doc), id, datasetId).None?
    ensures r.Err? ==> r.error == PairNotFound
    ensures r.Ok? ==>
      var ds := DatasetsOf(doc);
      var at := Locate(ds, id, datasetId).value;
      var ds' := DatasetsOf(r.value.doc);
      && r.value.persist && SameHeader(doc, r.value.doc) && r.value.doc.datasets.Some?
      && OnlyAt(ds, ds', at.dataset)
      && ds'[at.dataset] == ds[at.dataset].(items := RemoveAt(ds[at.dataset].items, at.pair), updatedAt := now)
  {
    var ds := DatasetsOf(doc);
    match Locate(ds, id, datasetId)
    case None => Err(PairNotFound)
    case Some(at) =>
      var d := ds[at.dataset];
      var d' := d.(items := RemoveAt(d.items, at.pair), updatedAt := now);
      Ok(Step(doc.(datasets := Some(ds[at.dataset := d'])), (), true))
  }
}

=== FILE: session.dfy ===
/**
 * The state the client database keeps between calls (the loaded document, whether a directory
 * is selected, and the auto-backup bookkeeping) and the operations that read or change it.
 * File contents reach this module already read and parsed; writing a file is assumed to succeed.
 */
module Session {
  import opened Wrappers
  import opened Types
  import Migration
  import Backups

  /** One reading of the clock: `new Date().toISOString()` and `Date.now()` at the same instant. */
  datatype Clock = Clock(iso: string, ms: int)

  /** The fields of a `ClientDatabase`: directory handle present, loaded document, `lastModified`, `hasChanges`. */
  datatype Session = Session(directory: bool, db: Option<Document>, lastModified: int, hasChanges: bool)

  /** What a call leaves behind and what it returns or throws. A throwing call may still have changed the state. */
  datatype Reply<T> = Reply(state: Session, result: Result<T, Error>)

  /** A new instance, and the state `reset()` returns to: nothing selected, nothing loaded, no pending changes. */
  function Initial(): (s: Session)
    ensures !s.directory && s.db.None? && !s.hasChanges && s.lastModified == 0
  {
    Session(false, None, 0, false)
  }

  /** `getDatabase`: the loaded document, or "Database not loaded" before a load. */
  function GetDatabase(s: Session): (r: Result<Document, Error>)
    ensures r.Ok? <==> s.db.Some?
    ensures r.Ok? ==> r.value == s.db.value
    ensures r.Err? ==> r.error == DatabaseNotLoaded
  {
    if s.db.Some? then Ok(s.db.value) else Err(DatabaseNotLoaded)
  }

  /** `markChanged`: records the instant of the change and that a backup is due. */
  function MarkChanged(s: Session, ms: int): (r: Session)
    ensures r.hasChanges && r.lastModified == ms
    ensures r.directory == s.directory && r.db == s.db
  {
    s.(lastModified := ms, hasChanges := true)
  }

  /**
   * `saveDatabase`: stamps the document's `updatedAt`, marks the change, and writes the whole
   * document; fails with "No directory or database available", changing nothing, when either is missing.
   */
  function SaveDatabase(s: Session, clock: Clock): (r: Reply<()>)
    ensures r.result.Err? <==> !s.directory || s.db.None?
    ensures r.result.Err? ==> r.result.error == NoDirectoryOrDatabase && r.state == s
    ensures r.result.Ok? ==>
      && r.state.db == Some(s.db.value.(updatedAt := clock.iso))
      && r.state.hasChanges && r.state.lastModified == clock.ms && r.state.directory
  {
    if !s.directory || s.db.None? then Reply(s, Err(NoDirectoryOrDatabase))
    else Reply(MarkChanged(s.(db := Some(s.db.value.(updatedAt := clock.iso))), clock.ms), Ok(()))
  }

  /**
   * A repository call: read the loaded document, apply the operation, keep its result in memory
   * and save when the operation asks for it. A call that throws before mutating leaves the state as it was.
   */
  function Perform<T>(s: Session, op: Document -> Result<Step<T>, Error>, clock: Clock): (r: Reply<T>)
    ensures s.db.None? ==> r == Reply(s, Err(DatabaseNotLoaded))
    ensures s.db.Some? && op(s.db.value).Err? ==> r == Reply(s, Err(op(s.db.value).error))
    ensures s.db.Some? && op(s.db.value).Ok? ==>
      var step := op(s.db.value).value;
      && (r.result.Ok? ==> r.result.value == step.value)
      && (!step.persist ==> r == Reply(s.(db := Some(step.doc)), Ok(step.value)))
      && (step.persist && s.directory ==>
            r.result.Ok? && r.state.db == Some(step.doc.(updatedAt := clock.iso))
            && r.state.hasChanges && r.state.lastModified == clock.ms)
      && (step.persist && !s.directory ==>
            r.result == Err(NoDirectoryOrDatabase) && r.state == s.(db := Some(step.doc)))
  {
    match GetDatabase(s)
    case Err(e) => Reply(s, Err(e))
    case Ok(doc) =>
      match op(doc)
      case Err(e) => Reply(s, Err(e))
      case Ok(step) =>
        var mutated := s.(db := Some(step.doc));
        if !step.persist then Reply(mutated, Ok(step.value))
        else
          var saved := SaveDatabase(mutated, clock);
          match saved.result
          case Err(e) => Reply(saved.state, Err(e))
          case Ok(_) => Reply(saved.state, Ok(step.value))
  }

  /**
   * The content branch of `loadDatabase`: the parsed document is migrated and kept, and saved
   * right away exactly when migration changed its version, which happens exactly for legacy documents.
   */
  function LoadParsed(s: Session, parsed: Document, clock: Clock, uuid: string): (r: Reply<Document>)
    ensures !s.directory ==> r == Reply(s, Err(NoDirectorySelected))
    ensures s.directory ==> r.result.Ok? && r.state.db == Some(r.result.value)
    ensures s.directory && Migration.IsLegacy(parsed) ==>
      && r.result.value == Migration.Migrate(parsed, clock.iso, uuid).(updatedAt := clock.iso)
      && r.state.hasChanges && r.state.lastModified == clock.ms
    ensures s.directory && !Migration.IsLegacy(parsed) ==>
      && r.result.value == Migration.Migrate(parsed, clock.iso, uuid)
      && r.state.hasChanges == s.hasChanges && r.state.lastModified == s.lastModified
  {
    if !s.directory then Reply(s, Err(NoDirectorySelected))
    else
      var doc := Migration.Migrate(parsed, clock.iso, uuid);
      var loaded := s.(db := Some(doc));
      if parsed.version != doc.version then
        var saved := SaveDatabase(loaded, clock);
        Reply(saved.state, Ok(saved.state.db.value))
      else Reply(loaded, Ok(doc))
  }

  /** A backup as written: its file name and the document it holds. */
  datatype Backup = Backup(filename: string, snapshot: Document)

  /**
   * `createBackup`: a file `backup-<stamp>.json` holding the whole current document; fails
   * with "No directory or database available" when either is missing. The state is not changed.
   */
  function CreateBackup(s: Session, clock: Clock): (r: Result<Backup, Error>)
    ensures r.Err? <==> !s.directory || s.db.None?
    ensures r.Err? ==> r.error == NoDirectoryOrDatabase
    ensures r.Ok? ==> r.value.snapshot == s.db.value && Backups.IsBackupFileName(r.value.filename)
    ensures r.Ok? && Backups.IsIsoInstant(clock.iso) ==>
      Backups.RawTimestamp(r.value.filename) == Backups.Stamp(clock.iso) && Backups.IsStamp(Backups.Stamp(clock.iso))
  {
    if !s.directory || s.db.None? then Err(NoDirectoryOrDatabase)
    else
      var name := Backups.BackupName(clock.iso);
      if Backups.IsIsoInstant(clock.iso) then
        Backups.StampIsWellFormed(clock.iso);
        Ok(Backup(name, s.db.value))
      else Ok(Backup(name, s.db.value))
  }

  /**
   * `createBackup` with the name the program writes: `backup-` and the timestamp as written
   * (`slice(0, -5)`), which lacks the last digit of the seconds and so is never well formed.
   */
  function CreateBackupAsWritten(s: Session, clock: Clock): (r: Result<Backup, Error>)
    ensures r.Err? <==> !s.directory || s.db.None?
    ensures r.Err? ==> r.error == NoDirectoryOrDatabase
    ensures r.Ok? ==> r.value.snapshot == s.db.value && Backups.IsBackupFileName(r.value.filename)
    ensures r.Ok? && Backups.IsIsoInstant(clock.iso) ==>
      && Backups.RawTimestamp(r.value.filename) == Backups.StampAsWritten(clock.iso)
      && !Backups.IsStamp(Backups.RawTimestamp(r.value.filename))
  {
    if !s.directory || s.db.None? then Err(NoDirectoryOrDatabase)
    else Ok(Backup(Backups.BackupNameAsWritten(clock.iso), s.db.value))
  }

  /** Changes are pending and more than `intervalMinutes` have passed since the last one. */
  predicate BackupDue(s: Session, intervalMinutes: int, now: int) {
    s.hasChanges && now - s.lastModified > intervalMinutes * 60 * 1000
  }

  datatype AutoBackup = AutoBackup(backupCreated: bool, filename: Option<string>)

  /**
   * `checkAutoBackup`: when a backup is due, creates one and clears the pending flag; reports
   * whether a backup was written. A failed attempt is reported as none and changes nothing.
   * The interval is a whole number of minutes supplied by the caller; the source's default of 60
   * and its fractional minutes are not modelled.
   */
  function CheckAutoBackup(s: Session, intervalMinutes: int, clock: Clock): (r: (Session, AutoBackup))
    ensures r.1.backupCreated <==> BackupDue(s, intervalMinutes, clock.ms) && s.directory && s.db.Some?
    ensures r.1.backupCreated ==>
      && r.0 == s.(hasChanges := false)
      && r.1.filename == Some(Backups.BackupName(clock.iso))
    ensures !r.1.backupCreated ==> r.0 == s && r.1.filename.None?
  {
    if BackupDue(s, intervalMinutes, clock.ms) then
      match CreateBackup(s, clock)
      case Ok(b) => (s.(hasChanges := false), AutoBackup(true, Some(b.filename)))
      case Err(_) => (s, AutoBackup(false, None))
    else (s, AutoBackup(false, None))
  }

  /** After an automatic backup, checking again creates nothing until the next save. */
  lemma AutoBackupSettles(s: Session, intervalMinutes: int, clock: Clock, later: Clock)
    requires CheckAutoBackup(s, intervalMinutes, clock).1.backupCreated
    ensures var s' := CheckAutoBackup(s, intervalMinutes, clock).0;
      CheckAutoBackup(s', intervalMinutes, later) == (s', AutoBackup(false, None))
  {
  }

  /**
   * A save schedules the next automatic backup: with a directory and a document, a check at a
   * later instant creates a backup exactly when more than the interval has passed since the save.
   */
  lemma SaveSchedulesBackup(s: Session, saveAt: Clock, intervalMinutes: int, checkAt: Clock)
    requires s.directory && s.db.Some?
    ensures var saved := SaveDatabase(s, saveAt).state;
      (CheckAutoBackup(saved, intervalMinutes, checkAt).1.backupCreated
       <==> checkAt.ms - saveAt.ms > intervalMinutes * 60 * 1000)
  {
  }

  /** `listBackups`: the backup rows, newest first; fails with "No directory selected" without a directory. */
  function ListBackups(s: Session, entries: seq<Backups.Entry>, clock: Clock): (r: Result<seq<Backups.BackupInfo>, Error>)
    ensures r.Err? <==> !s.directory
    ensures r.Err? ==> r.error == NoDirectorySelected
    ensures r.Ok? ==> Backups.NewestFirst(r.value)
    ensures r.Ok? ==> multiset(r.value) == multiset(Backups.Collect(entries, Backups.Stamp(clock.iso)))
    ensures r.Ok? ==> forall e :: e in entries && Backups.Listed(e) ==> Backups.Info(e, Backups.Stamp(clock.iso)) in r.value
    ensures r.Ok? ==> forall b :: b in r.value ==> exists e :: e in entries && Backups.Listed(e) && b == Backups.Info(e, Backups.Stamp(clock.iso))
  {
    if !s.directory then Err(NoDirectorySelected)
    else Ok(Backups.ListBackupRows(entries, Backups.Stamp(clock.iso)))
  }

  /**
   * A backup just created shows up in the listing under its file name, with the creation
   * instant as its timestamp and with as many items as the live document holds in all datasets.
   */
  lemma CreatedBackupIsListed(s: Session, clock: Clock, size: nat, listedAt: Clock)
    requires s.directory && s.db.Some? && Backups.IsIsoInstant(clock.iso)
    ensures var b := CreateBackup(s, clock);
      var e := Backups.Entry(b.value.filename, true, Some(b.value.snapshot), size);
      && b.Ok? && Backups.Listed(e)
      && ListBackups(s, [e], listedAt)
           == Ok([Backups.BackupInfo(b.value.filename, Backups.Stamp(clock.iso), |AllPairs(DatasetsOf(s.db.value))|, size)])
  {
    var b := CreateBackup(s, clock);
    var e := Backups.Entry(b.value.filename, true, Some(b.value.snapshot), size);
    var rows := ListBackups(s, [e], listedAt).value;
    var info := Backups.Info(e, Backups.Stamp(listedAt.iso));
    assert info.timestamp == Backups.Stamp(clock.iso);
    assert info in rows;
    assert |rows| == 1 by {
      assert |Backups.Collect([e], Backups.Stamp(listedAt.iso))| <= 1;
      assert multiset(rows) == multiset(Backups.Collect([e], Backups.Stamp(listedAt.iso)));
    }
    assert rows == [info];
  }

  /**
   * What the program lists for a backup it has just written: the timestamp as written with
   * its missing last digit padded as '0', which is not the creation instant whenever the
   * seconds do not end in 0.
   */
  lemma AsWrittenBackupIsListed(s: Session, clock: Clock, size: nat, listedAt: Clock)
    requires s.directory && s.db.Some? && Backups.IsIsoInstant(clock.iso)
    ensures var b := CreateBackupAsWritten(s, clock);
      var e := Backups.Entry(b.value.filename, true, Some(b.value.snapshot), size);
      && b.Ok? && Backups.Listed(e)
      && ListBackups(s, [e], listedAt)
           == Ok([Backups.BackupInfo(b.value.filename, Backups.StampAsWritten(clock.iso) + "0",
                                     |AllPairs(DatasetsOf(s.db.value))|, size)])
      && (clock.iso[18] != '0' ==> Backups.StampAsWritten(clock.iso) + "0" != Backups.Stamp(clock.iso))
  {
    var b := CreateBackupAsWritten(s, clock);
    var e := Backups.Entry(b.value.filename, true, Some(b.value.snapshot), size);
    var rows := ListBackups(s, [e], listedAt).value;
    var info := Backups.Info(e, Backups.Stamp(listedAt.iso));
    Backups.AsWrittenListedTimestamp(clock.iso, Backups.Stamp(listedAt.iso));
    assert info.timestamp == Backups.StampAsWritten(clock.iso) + "0";
    assert info in rows;
    assert |rows| == 1 by {
      assert |Backups.Collect([e], Backups.Stamp(listedAt.iso))| <= 1;
      assert multiset(rows) == multiset(Backups.Collect([e], Backups.Stamp(listedAt.iso)));
    }
    assert rows == [info];
  }

  /**
   * `restoreBackup`: the backup's document (`None` when the file is missing or does not parse)
   * is migrated, replaces the live document wholesale and is saved. A missing or unreadable
   * backup fails with "Failed to restore backup" and changes nothing.
   */
  function RestoreBackup(s: Session, read: Option<Document>, clock: Clock, uuid: string): (r: Reply<()>)
    ensures !s.directory ==> r == Reply(s, Err(NoDirectorySelected))
    ensures s.directory && read.None? ==> r == Reply(s, Err(RestoreFailed))
    ensures s.directory && read.Some? ==>
      && r.result.Ok?
      && r.state.db == Some(Migration.Migrate(read.value, clock.iso, uuid).(updatedAt := clock.iso))
      && r.state.hasChanges && r.state.lastModified == clock.ms
  {
    if !s.directory then Reply(s, Err(NoDirectorySelected))
    else if read.None? then Reply(s, Err(RestoreFailed))
    else
      var restored := s.(db := Some(Migration.Migrate(read.value, clock.iso, uuid)));
      SaveDatabase(restored, clock)
  }

  /**
   * After restoring a backup, the live pairs are exactly the backup's pairs, whatever the live
   * document held before; a backup written by `createBackup` restores to the pairs it saved.
   */
  lemma RestoreReplacesPairs(s: Session, backup: Document, clock: Clock, uuid: string)
    requires s.directory && Migration.IsCurrent(backup)
    ensures var r := RestoreBackup(s, Some(backup), clock, uuid);
      && r.state.db.Some?
      && AllPairs(DatasetsOf(r.state.db.value)) == AllPairs(DatasetsOf(backup))
  {
    Migration.MigrateCurrentIsIdentity(backup, clock.iso, uuid);
  }
}

=== FILE: text.dfy ===
/**
 * String primitives modelling the JavaScript built-ins the data layer calls. A string is a
 * sequence of Unicode scalar values, so lengths and indices count characters where JavaScript
 * counts UTF-16 code units; the two agree on text inside the Basic Multilingual Plane.
 */
module Text {

  /** The characters `String.prototype.trim` removes: WhiteSpace and LineTerminator of ECMA-262. */
  predicate IsJsSpace(c: char) {
    var n := c as int;
    n == 0x09 || n == 0x0A || n == 0x0B || n == 0x0C || n == 0x0D || n == 0x20
    || n == 0xA0 || n == 0x1680 || (0x2000 <= n <= 0x200A) || n == 0x2028 || n == 0x2029
    || n == 0x202F || n == 0x205F || n == 0x3000 || n == 0xFEFF
  }

  predicate IsDigit(c: char) {
    '0' <= c <= '9'
  }

  predicate AllDigits(s: string) {
    forall i :: 0 <= i < |s| ==> IsDigit(s[i])
  }

  /** No character of `s` ends a line for the importer's line splitter. */
  predicate NoLineBreak(s: string) {
    forall i :: 0 <= i < |s| ==> s[i] != '\n' && s[i] != '\r'
  }

  predicate StartsWith(s: string, prefix: string) {
    |prefix| <= |s| && s[..|prefix|] == prefix
  }

  predicate EndsWith(s: string, suffix: string) {
    |suffix| <= |s| && s[|s| - |suffix|..] == suffix
  }

  /** `s.trimStart()` */
  function TrimStart(s: string): (r: string)
    ensures |r| <= |s| && r == s[|s| - |r|..]
    ensures |r| > 0 ==> !IsJsSpace(r[0])
    ensures forall i :: 0 <= i < |s| - |r| ==> IsJsSpace(s[i])
  {
    if |s| > 0 && IsJsSpace(s[0]) then TrimStart(s[1..]) else s
  }

  /** `s.trimEnd()` */
  function TrimEnd(s: string): (r: string)
    ensures |r| <= |s| && r == s[..|r|]
    ensures |r| > 0 ==> !IsJsSpace(r[|r| - 1])
    ensures forall i :: |r| <= i < |s| ==> IsJsSpace(s[i])
  {
    if |s| > 0 && IsJsSpace(s[|s| - 1]) then TrimEnd(s[..|s| - 1]) else s
  }

  /** `s.trim()` */
  function Trim(s: string): (r: string)
  {
    TrimEnd(TrimStart(s))
  }

  /** A string that neither starts nor ends with white space is its own trim. */
  lemma TrimOfTrimmed(s: string)
    requires |s| > 0 && !IsJsSpace(s[0]) && !IsJsSpace(s[|s| - 1])
    ensures Trim(s) == s
  {
  }

  /**
   * The pieces of `s.split("\n")`: the maximal runs of characters between line feeds,
   * so `k` line feeds give `k + 1` pieces (and "" gives [""]).
   */
  function SplitAtLineFeeds(s: string): (r: seq<string>)
    ensures |r| >= 1
  {
    if |s| == 0 then [""]
    else
      var rest := SplitAtLineFeeds(s[1..]);
      if s[0] == '\n' then [""] + rest
      else [[s[0]] + rest[0]] + rest[1..]
  }

  /** Removes one carriage return ending `s`: the `\r?` of the pattern `/\r?\n/`. */
  function DropCarriageReturn(s: string): (r: string)
  {
    if |s| > 0 && s[|s| - 1] == '\r' then s[..|s| - 1] else s
  }

  /**
   * `s.split(/\r?\n/)`, except that a carriage return ending the final piece is dropped here
   * and kept by JavaScript. Every caller trims the pieces, after which the two agree.
   */
  function SplitLines(s: string): (r: seq<string>)
    ensures |r| == |SplitAtLineFeeds(s)|
  {
    var pieces := SplitAtLineFeeds(s);
    seq(|pieces|, i requires 0 <= i < |pieces| => DropCarriageReturn(pieces[i]))
  }

  /** `lines.join("\n")` */
  function JoinLines(lines: seq<string>): (r: string)
  {
    if |lines| == 0 then ""
    else if |lines| == 1 then lines[0]
    else lines[0] + "\n" + JoinLines(lines[1..])
  }

  lemma {:induction false} SplitWithoutLineFeed(s: string)
    requires '\n' !in s
    ensures SplitAtLineFeeds(s) == [s]
    decreases |s|
  {
    if |s| > 0 {
      SplitWithoutLineFeed(s[1..]);
      assert [s[0]] + s[1..] == s;
    }
  }

  lemma {:induction false} SplitAtFirstLineFeed(a: string, b: string)
    requires '\n' !in a
    ensures SplitAtLineFeeds(a + "\n" + b) == [a] + SplitAtLineFeeds(b)
    decreases |a|
  {
    if |a| == 0 {
      assert a + "\n" + b == "\n" + b;
      assert ("\n" + b)[1..] == b;
    } else {
      var s := a + "\n" + b;
      assert s[0] == a[0];
      assert s[1..] == a[1..] + "\n" + b;
      SplitAtFirstLineFeed(a[1..], b);
      assert [a[0]] + a[1..] == a;
    }
  }

  /** The first line of a text, its carriage return dropped, then the lines of the rest. */
  lemma SplitLinesAtFirstLineFeed(a: string, b: string)
    requires '\n' !in a
    ensures SplitLines(a + "\n" + b) == [DropCarriageReturn(a)] + SplitLines(b)
  {
    SplitAtFirstLineFeed(a, b);
  }

  /** Splitting at line feeds undoes joining with line feeds, for lines without one. */
  lemma {:induction false} SplitJoin(lines: seq<string>)
    requires |lines| >= 1
    requires forall i :: 0 <= i < |lines| ==> '\n' !in lines[i]
    ensures SplitAtLineFeeds(JoinLines(lines)) == lines
    decreases |lines|
  {
    if |lines| == 1 {
      SplitWithoutLineFeed(lines[0]);
    } else {
      SplitAtFirstLineFeed(lines[0], JoinLines(lines[1..]));
      SplitJoin(lines[1..]);
      assert [lines[0]] + lines[1..] == lines;
    }
  }

  /** `s.slice(start, -k)` for non-negative `start` and positive `k`. */
  function SliceFromTo(s: string, start: nat, k: nat): (r: string)
    ensures |r| == if start + k <= |s| then |s| - k - start else 0
    ensures start + k <= |s| ==> r == s[start..|s| - k]
  {
    var end := if k <= |s| then |s| - k else 0;
    if start < end then s[start..end] else ""
  }

  /** `s.slice(start)` for non-negative `start`. */
  function SliceFrom(s: string, start: nat): (r: string)
    ensures start <= |s| ==> r == s[start..]
    ensures start >= |s| ==> r == ""
  {
    if start < |s| then s[start..] else ""
  }

  /** `s.padEnd(width, c)` with a one-character pad string. */
  function PadEnd(s: string, width: nat, c: char): (r: string)
    ensures |r| == if |s| < width then width else |s|
    ensures r[..|s|] == s
    ensures forall i :: |s| <= i < |r| ==> r[i] == c
    decreases width - |s|
  {
    if |s| < width then PadEnd(s + [c], width, c) else s
  }

  /** `s.replace(/[...]/g, "")`: drops every character in `drop`. */
  function RemoveAll(s: string, drop: set<char>): (r: string)
    ensures |r| <= |s|
  {
    if |s| == 0 then ""
    else (if s[0] in drop then "" else [s[0]]) + RemoveAll(s[1..], drop)
  }

  /** `s.replace(/[...]/g, "-")`-style substitution of every character in `from` by `to`. */
  function ReplaceAllChars(s: string, from: set<char>, to: char): (r: string)
    ensures |r| == |s|
    ensures forall i :: 0 <= i < |s| ==> r[i] == if s[i] in from then to else s[i]
  {
    seq(|s|, i requires 0 <= i < |s| => if s[i] in from then to else s[i])
  }

  /** `s.replace(c, d)` with a one-character search string: only the first occurrence changes. */
  function ReplaceFirst(s: string, c: char, d: char): (r: string)
    ensures |r| == |s|
  {
    if |s| == 0 then ""
    else if s[0] == c then [d] + s[1..]
    else [s[0]] + ReplaceFirst(s[1..], c, d)
  }

  /**
   * Code-point lexicographic order. It agrees with `localeCompare` on strings of digits with a
   * dash at the same places, such as well-formed backup timestamps, but not in general.
   */
  predicate LexLeq(a: string, b: string)
    decreases |a|
  {
    |a| == 0 || (|b| > 0 && (a[0] < b[0] || (a[0] == b[0] && LexLeq(a[1..], b[1..]))))
  }

  lemma {:induction false} LexLeqTotal(a: string, b: string)
    ensures LexLeq(a, b) || LexLeq(b, a)
    decreases |a|
  {
    if |a| > 0 && |b| > 0 && a[0] == b[0] {
      LexLeqTotal(a[1..], b[1..]);
    }
  }

  lemma {:induction false} LexLeqTransitive(a: string, b: string, c: string)
    requires LexLeq(a, b) && LexLeq(b, c)
    ensures LexLeq(a, c)
    decreases |a|
  {
    if |a| > 0 && a[0] == b[0] && b[0] == c[0] {
      LexLeqTransitive(a[1..], b[1..], c[1..]);
    }
  }
}

=== FILE: transfer.dfy ===
/** JSONL import into a dataset and export of the stored pairs, as the client database does them. */
module Transfer {
  import opened Wrappers
  import opened Text
  import opened Json
  import opened Types
  import opened Jsonl
  import opened Repository
  import Exporters

  /** The pairs an import creates: the k-th accepted line gets id `ids(k)` and both stamps at `now`. */
  function NewPairs(texts: seq<(string, string)>, ids: nat -> string, now: string, from: nat): (r: seq<Pair>)
    ensures |r| == |texts|
    ensures Texts(r) == texts
    ensures forall k :: 0 <= k < |r| ==> r[k] == Pair(ids(from + k), texts[k].0, texts[k].1, None, now, now)
  {
    if |texts| == 0 then []
    else [Pair(ids(from), texts[0].0, texts[0].1, None, now, now)] + NewPairs(texts[1..], ids, now, from + 1)
  }

  /**
   * `importJSONL`: appends to the first dataset with `datasetId` one new pair per accepted line,
   * in line order, and returns how many were added; the dataset is stamped and the document
   * saved only when that number is positive. Fails with "Dataset not found" when there is no
   * such dataset.
   */
  function ImportJSONL(doc: Document, datasetId: string, format: ExportFormat, jsonl: string,
                       parse: string -> Option<Json>, now: string, ids: nat -> string): (r: Result<Step<nat>, Error>)
    ensures r.Err? <==> !HasId(DatasetsOf(doc), datasetId)
    ensures r.Err? ==> r.error == DatasetNotFound
    ensures r.Ok? ==> r.value.value == |Accepted(format, parse, ImportLines(jsonl))|
    ensures r.Ok? ==> (r.value.persist <==> r.value.value > 0)
    ensures r.Ok? && r.value.value == 0 ==> r.value.doc == doc
    ensures r.Ok? && r.value.value > 0 ==>
      var ds := DatasetsOf(doc);
      var i := FirstDataset(ds, datasetId);
      var ds' := DatasetsOf(r.value.doc);
      && SameHeader(doc, r.value.doc) && r.value.doc.datasets.Some?
      && OnlyAt(ds, ds', i)
      && |ds'[i].items| == |ds[i].items| + r.value.value
      && ds'[i].items[..|ds[i].items|] == ds[i].items
      && ds'[i].items[|ds[i].items|..] == NewPairs(Accepted(format, parse, ImportLines(jsonl)), ids, now, 0)
      && Texts(ds'[i].items[|ds[i].items|..]) == Accepted(format, parse, ImportLines(jsonl))
      && ds'[i] == ds[i].(items := ds'[i].items, updatedAt := now)
  {
    var ds := DatasetsOf(doc);
    if !HasId(ds, datasetId) then Err(DatasetNotFound)
    else
      var texts := Accepted(format, parse, ImportLines(jsonl));
      if |texts| == 0 then Ok(Step(doc, 0, false))
      else
        var i := FirstDataset(ds, datasetId);
        var added := NewPairs(texts, ids, now, 0);
        var items := ds[i].items + added;
        assert items[..|ds[i].items|] == ds[i].items;
        assert items[|ds[i].items|..] == added;
        var d := ds[i].(items := items, updatedAt := now);
        Ok(Step(doc.(datasets := Some(ds[i := d])), |texts|, true))
  }

  /**
   * `exportData`: the records of `listPairs(datasetId)` joined by line feeds, after dropping
   * empty lines. No record is empty, so this is exactly the exporter's text for those pairs.
   */
  function ExportData(doc: Document, format: ExportFormat, datasetId: Option<string>): (r: string)
    ensures r == Exporters.Encode(format, ListPairs(doc, datasetId))
  {
    var lines := Lines(format, ListPairs(doc, datasetId));
    JoinLines(NonBlank(lines))
  }

  /** The export text of the client database is the body `exportDataset` produces for the same pairs. */
  lemma ExportDataMatchesExporter(doc: Document, format: ExportFormat, datasetId: Option<string>, iso: string)
    ensures ExportData(doc, format, datasetId) == Exporters.ExportDataset(format, ListPairs(doc, datasetId), iso).body
  {
  }

  /**
   * Round trip through the client database: importing an export of `listPairs(datasetId)` into
   * any dataset appends pairs with the same texts, in the same order.
   */
  lemma ExportThenImportData(doc: Document, format: ExportFormat, datasetId: Option<string>, target: string,
                             parse: string -> Option<Json>, now: string, ids: nat -> string)
    requires ReadsBackStringify(parse)
    requires AllNonEmpty(ListPairs(doc, datasetId))
    requires HasId(DatasetsOf(doc), target)
    ensures var r := ImportJSONL(doc, target, format, ExportData(doc, format, datasetId), parse, now, ids);
      && r.Ok? && r.value.value == |ListPairs(doc, datasetId)|
      && (r.value.value > 0 ==>
            var i := FirstDataset(DatasetsOf(doc), target);
            var before := DatasetsOf(doc)[i].items;
            Texts(DatasetsOf(r.value.doc)[i].items[|before|..]) == Texts(ListPairs(doc, datasetId)))
  {
    var pairs := ListPairs(doc, datasetId);
    Exporters.ExportThenImport(format, pairs, "", parse);
  }
}

=== FILE: types.dfy ===
/** The persisted shapes of the data layer: pairs, datasets and the root document. */
module Types {
  import opened Wrappers
  import Json

  /** One fine-tuning example. Timestamps are ISO-8601 strings taken from the clock. */
  datatype Pair = Pair(
    id: string,
    input: string,
    output: string,
    metadata: Option<seq<Json.Member>>,
    createdAt: string,
    updatedAt: string)

  /** A named, ordered collection of pairs; item order is display order. */
  datatype Dataset = Dataset(
    id: string,
    name: string,
    items: seq<Pair>,
    createdAt: string,
    updatedAt: string)

  /**
   * The root document as read from disk. A legacy (v1) file carries a flat `items` list and
   * no `datasets`; a current (v2) file carries `datasets`. `None` stands for a missing field
   * or, for the two lists, a value that is not an array. An absent timestamp is "".
   */
  datatype Document = Document(
    version: Option<int>,
    items: Option<seq<Pair>>,
    datasets: Option<seq<Dataset>>,
    createdAt: string,
    updatedAt: string)

  /** The two line formats of import and export. */
  datatype ExportFormat = Gemini | OpenAIChat

  /** The conditions the data layer raises. */
  datatype Error =
    | DatabaseNotLoaded       // "Database not loaded. Call loadDatabase() first."
    | NoDirectoryOrDatabase   // "No directory or database available"
    | NoDirectorySelected     // "No directory selected"
    | DatasetNotFound         // "Dataset not found"
    | NoDatasetAvailable      // "No dataset available"
    | PairNotFound            // "Pair not found"
    | RestoreFailed           // "Failed to restore backup: ..."

  /**
   * What a repository operation does to the in-memory document: the document afterwards, the
   * value it returns, and whether it ends with a whole-document save.
   */
  datatype Step<T> = Step(doc: Document, value: T, persist: bool)

  /** `db.datasets || []` */
  function DatasetsOf(doc: Document): seq<Dataset> {
    doc.datasets.GetOr([])
  }

  /** `ids` contains `id`: the predicate `d => d.id === id` of `find`/`findIndex`. */
  predicate HasId(ds: seq<Dataset>, id: string) {
    exists i :: 0 <= i < |ds| && ds[i].id == id
  }

  /** Index of the first dataset with `id`, as `findIndex` returns it. */
  function FirstDataset(ds: seq<Dataset>, id: string): (r: nat)
    requires HasId(ds, id)
    ensures r < |ds| && ds[r].id == id
    ensures forall j :: 0 <= j < r ==> ds[j].id != id
  {
    if ds[0].id == id then 0 else FirstDataset(ds[1..], id) + 1
  }

  predicate HasPair(ps: seq<Pair>, id: string) {
    exists i :: 0 <= i < |ps| && ps[i].id == id
  }

  /** Index of the first pair with `id`. */
  function FirstPair(ps: seq<Pair>, id: string): (r: nat)
    requires HasPair(ps, id)
    ensures r < |ps| && ps[r].id == id
    ensures forall j :: 0 <= j < r ==> ps[j].id != id
  {
    if ps[0].id == id then 0 else FirstPair(ps[1..], id) + 1
  }

  /** `s.splice(i, 1)`: removes the element at `i` and keeps the order of the others. */
  function RemoveAt<T>(s: seq<T>, i: nat): (r: seq<T>)
    requires i < |s|
    ensures |r| == |s| - 1
    ensures forall j :: 0 <= j < i ==> r[j] == s[j]
    ensures forall j :: i <= j < |r| ==> r[j] == s[j + 1]
  {
    s[..i] + s[i + 1..]
  }

  /** All pairs of all datasets, in dataset order then item order (`flatMap(d => d.items)`). */
  function AllPairs(ds: seq<Dataset>): (r: seq<Pair>)
  {
    if |ds| == 0 then [] else ds[0].items + AllPairs(ds[1..])
  }
}

=== FILE: wrappers.dfy ===
/** Failure-carrying wrappers shared by every module of the model. */
module Wrappers {

  /** A value that may be absent: JavaScript's `undefined`, a missing key, a `null` handle. */
  datatype Option<+T> = None | Some(value: T) {
    function GetOr(default: T): T {
      match this
      case Some(v) => v
      case None => default
    }
  }

  /** The outcome of an operation that may throw: either its value or the error it raises. */
  datatype Result<+T, +E> = Ok(value: T) | Err(error: E)
}
